=== FILE: README.md ===
# Test-drive booking assistant: a verified model of its core

This project models, in Dafny, the core of a dealership voice assistant. The assistant takes test-drive bookings over a conversation. Its core has three parts:

- **The booking scheduler** (`BookingAgent`). It keeps an ordered list of bookings and validates a requested date and time against today and the business hours (09:00 to 18:00). It refuses a second live booking of the same vehicle at the same date and time. It creates, cancels and reschedules bookings, lists the free half-hour slots of a day, and projects the bookings by date and by customer phone.
- **The vehicle catalog** (`KnowledgeAgent`). It supports a staged multi-criteria search, lookup by id and by model name, the set of vehicle types, a price-range query, a price-ranked "featured" list and an availability switch.
- **The conversational agent** (`ConversationalAgent`). It keeps a per-conversation state and has a keyword fallback classifier used when the language model's answer does not parse. It dispatches to five handlers and normalises "today"/"tomorrow" and "2pm"-style phrases into the `YYYY-MM-DD` and `HH:MM` text the scheduler stores.

The modules follow the program:

- `Common`: option/result types, subsequences, filtering, first index, Python slicing.
- `Text`: character classes, case mapping, `in`, `strip()`, zero-padded numerals.
- `Calendar`: dates, `strptime`/`strftime` for `%Y-%m-%d` and `%H:%M`, and the next day.
- `Catalog`: the vehicle catalog.
- `Scheduler`: the booking scheduler.
- `Intent`: the classifier's answer and the keyword fallback.
- `Normalize`: the date and time normalisers.
- `Dialogue`: conversation state, handlers and one turn.
- `Scenarios`: worked examples on concrete data.

The model makes these choices:

- Every operation is a pure function from the old state to the new state and a result. The current date and the id of a new booking are parameters.
- Booking dates and times are kept as text, exactly as the scheduler stores them. Conflicts, slot lists and projections compare that text. Only validation parses it.
- The outcome of the language-model call is a parameter of a turn. It is a parsed answer, a reply that is not JSON (the keyword fallback is used), or an unusable answer (the turn apologises).

## Model

| member | source | states |
|---|---|---|
| Scheduler.Validate | agent/booking_agent.py:166-201 | A request is accepted exactly when the date parses as `%Y-%m-%d`, is not before today, and the time parses as `%H:%M` within the business hours, both ends included. A parsable past date is reported as past. Any other refusal is malformed input or out of hours. |
| Scheduler.HasConflict | agent/booking_agent.py:219-225 | Answers true exactly when some non-cancelled booking holds the same vehicle at the same date and time text. |
| Scheduler.Create | agent/booking_agent.py:96-143 | Invalid date or time: the list is unchanged and the validation reason is reported. Slot taken: the list is unchanged. Otherwise exactly one confirmed booking is appended and returned, holding the vehicle's id, make, model and year, the given date, time and customer, and the new id. |
| Scheduler.ById | agent/booking_agent.py:271-274 | Returns the first booking with the id, or none exactly when no booking has it. |
| Scheduler.Cancel | agent/booking_agent.py:285-309 | Unknown id: not found, nothing changes. The first booking with the id is already cancelled: refused, nothing changes. Otherwise only that booking becomes cancelled. |
| Scheduler.Reschedule | agent/booking_agent.py:327-363 | Unknown id: not found. Then validation, then the conflict check against every live booking, the moved one included. On success only that booking's date and time change, and its status is kept. |
| Scheduler.SlotGrid | agent/booking_agent.py:242-248 | Two slots per whole hour from the opening hour up to the closing hour, excluding the closing hour, with minutes ignored. Slot i is five characters and reads back as the opening hour plus 30·i minutes, so it is the canonical `HH:MM` text of that time. |
| Scheduler.OnGridIsSlot | agent/booking_agent.py:245-258 | Slots are matched as text. A five-character time text on a half hour between the opening hour and the closing hour is one of the grid's slots. |
| Scheduler.SlotGridDistinct | agent/booking_agent.py:245-248 | No two grid slots are the same text. |
| Scheduler.BookedTimes | agent/booking_agent.py:251-256 | A time is in the set exactly when a live booking on that date has it, restricted to the given vehicle when one is given. |
| Scheduler.AvailableSlots | agent/booking_agent.py:242-260 | The result is the grid, in grid order, with a slot kept exactly when no live booking on that date (of that vehicle, if given) has that time. |
| Scheduler.FreeSlotsMonotone | agent/booking_agent.py:258 | More booked times leave a sub-list of the free slots, in the same order. |
| Scheduler.UnscopedWithinScoped | agent/booking_agent.py:251-258 | Slots free for all vehicles are a sub-list of the slots free for any one vehicle. |
| Scheduler.ByDate | agent/booking_agent.py:374-377 | The live bookings on that date, all of them, in list order. |
| Scheduler.ByDateCount | agent/booking_agent.py:374-377 | Every copy of a live booking on that date is kept, and nothing else. |
| Scheduler.ByCustomer | agent/booking_agent.py:391-394 | All bookings with that phone, cancelled ones included, in list order. |
| Scheduler.ByCustomerCount | agent/booking_agent.py:391-394 | Every copy of a booking with that phone is kept, and nothing else. |
| Scheduler.AvailabilityAgreesWithByDate | agent/booking_agent.py:251-258 | A grid slot is missing from the all-vehicle view exactly when a booking listed for that date has that time. |
| Scheduler.CreateKeepsNoDoubleBooking | agent/booking_agent.py:103-134 | Creating never puts two live bookings on the same vehicle, date and time. |
| Scheduler.CreateKeepsUniqueIds | agent/booking_agent.py:110-134 | With a fresh id, creating keeps booking ids distinct. |
| Scheduler.CreateThenConflict | agent/booking_agent.py:134 | Right after a successful create, the same vehicle, date and time conflict. |
| Scheduler.CreateRemovesSlot | agent/booking_agent.py:251-258 | Right after a successful create, the booked time is missing from the vehicle's and the all-vehicle availability. |
| Scheduler.CancelKeepsNoDoubleBooking | agent/booking_agent.py:299 | Cancelling never creates a double booking. |
| Scheduler.CancelKeepsUniqueIds | agent/booking_agent.py:299 | Cancelling keeps booking ids distinct. |
| Scheduler.CancelTwice | agent/booking_agent.py:293-297 | A second cancel of the same id is refused as already cancelled and changes nothing. |
| Scheduler.RescheduleKeepsNoDoubleBooking | agent/booking_agent.py:343-352 | Rescheduling never creates a double booking. |
| Scheduler.RescheduleKeepsUniqueIds | agent/booking_agent.py:351-352 | Rescheduling keeps booking ids distinct. |
| Scheduler.RescheduleToOwnSlotFails | agent/booking_agent.py:344-348 | Moving a live booking to the slot it already holds is refused as taken, because the conflict check counts the booking itself. |
| Catalog.Selected | agent/knowledge_agent.py:251-278 | Reference reading of a search: a sub-list of the catalog holding exactly the available vehicles that meet every given criterion. |
| Catalog.SelectedCount | agent/knowledge_agent.py:251-278 | The selection keeps every copy of a matching vehicle and no copy of any other. |
| Catalog.Search | agent/knowledge_agent.py:251-281 | The six filter stages, applied in sequence, give exactly the reference selection. |
| Catalog.SearchWithoutCriteria | agent/knowledge_agent.py:277-278 | With no criteria, the search returns exactly the available vehicles in list order. |
| Catalog.SearchNarrows | agent/knowledge_agent.py:253-275 | Adding criteria gives a sub-list of the earlier result. |
| Catalog.ById | agent/knowledge_agent.py:292-295 | Returns the first vehicle with the id, available or not, or none exactly when no vehicle has it. |
| Catalog.ByModel | agent/knowledge_agent.py:306-309 | Returns the first vehicle whose model contains the name, ignoring case and availability, or none exactly when no model contains it. |
| Catalog.AllKinds | agent/knowledge_agent.py:317 | A type is in the result exactly when some vehicle has it. |
| Catalog.PriceRange | agent/knowledge_agent.py:333-336 | Returns exactly the available vehicles priced within the inclusive bounds, in list order. |
| Catalog.PriceRangeCount | agent/knowledge_agent.py:333-336 | Every copy of an available vehicle within the bounds is kept, and nothing else. |
| Catalog.PriceRangeIsSearch | agent/knowledge_agent.py:271-275 | For non-zero bounds, the price range query equals the search with those bounds. |
| Catalog.InsertByPrice | agent/knowledge_agent.py:348 | Inserting into a price-descending list keeps it descending and adds exactly the new vehicle. |
| Catalog.SortByPriceDesc | agent/knowledge_agent.py:348 | The result is descending by price and a permutation of the input. |
| Catalog.SortByPriceDescStable | agent/knowledge_agent.py:348 | Vehicles of equal price keep their relative order. |
| Catalog.Featured | agent/knowledge_agent.py:347-348 | Returns available catalog vehicles in descending price, with length as Python's `[:count]` gives it. The result is a sub-multiset of the available vehicles. Any available vehicle dearer than a listed one is listed too. For every price above the last one listed, the listed vehicles of that price are exactly the available ones of that price, repeats included, in catalog order. |
| Catalog.FeaturedKeepsTies | agent/knowledge_agent.py:347-348 | For any count, the listed vehicles of one price are the first vehicles of that price in catalog order, in that order. |
| Catalog.FeaturedIsStableTop | agent/knowledge_agent.py:347-348 | When count covers all available vehicles, the result is a stable descending sort of them. |
| Catalog.SetAvailability | agent/knowledge_agent.py:364-370 | Reports success exactly when the id exists. Then only the first vehicle with it changes, and only its availability. Otherwise nothing changes. |
| Calendar.NextDay | agent/conversational_agent.py:352 | There is no next day exactly after 9999-12-31. Otherwise the result is a valid later date with no valid date strictly between. |
| Calendar.FormatDate | agent/conversational_agent.py:350-352 | The rendering is ten characters: digits, with `-` at positions 4 and 7. `Calendar.ParseFormatDate` states that it reads back. |
| Calendar.ParseDate | agent/booking_agent.py:168 | An accepted text names a valid date, has 8 to 10 characters, four year digits and a '-' after them. |
| Calendar.ParseFormatDate | agent/conversational_agent.py:350-352 | Every rendered date parses back as itself, so normalised dates pass the date check. |
| Calendar.FormatTime | agent/booking_agent.py:246-248 | The rendering is five characters; `Calendar.ParseFormatTime` states that it reads back. |
| Calendar.ParseTime | agent/booking_agent.py:178 | An accepted text has 3 to 5 characters, with ':' as its second or third character. |
| Calendar.ParseFormatTime | agent/booking_agent.py:178 | Every rendered time of day parses back as itself. |
| Calendar.CanonicalTime | agent/booking_agent.py:178 | A five-character text the time parser accepts is the canonical rendering of its value. |
| Calendar.CanonicalDate | agent/booking_agent.py:168 | A ten-character text the date parser accepts, with no space before the day, is the canonical `YYYY-MM-DD` rendering of its date. So the rendering of a date is the only such text for it. |
| Calendar.FormatTimeInjective | agent/booking_agent.py:246-248 | Distinct times of day never render as the same text. |
| Intent.MentionsAny | agent/conversational_agent.py:160 | True exactly when one of the words occurs in the text. |
| Intent.FirstMentioned | agent/conversational_agent.py:172-176 | Returns the first word in list order that occurs, or none exactly when none occurs. |
| Intent.Classify | agent/conversational_agent.py:159-169 | The tests run in order and a later match overrides an earlier one. Any cancel word gives cancellation. Otherwise any confirm word gives confirmation. Otherwise any booking word gives a booking. Otherwise the utterance is a general inquiry. |
| Intent.FirstKind | agent/conversational_agent.py:172-176 | The first type in list order that is mentioned, upper-cased, or none exactly when no type is mentioned. |
| Intent.DateWord | agent/conversational_agent.py:179-182 | "tomorrow" is reported when mentioned, otherwise "today" when mentioned, otherwise nothing. |
| Intent.TimeMatchAt | agent/conversational_agent.py:185-186 | A match tried at an index ends within the text, after that index. `Normalize.TimeTokenIsClock` states what the matched text reads as. |
| Intent.FindTime | agent/conversational_agent.py:185-188 | Returns the leftmost time expression: none exactly when no index starts one, otherwise the text of the match at the first index that does. |
| Intent.FindTimeSkips | agent/conversational_agent.py:186 | A stretch without digits holds no time expression. |
| Intent.Fallback | agent/conversational_agent.py:149-190 | Precedence: a cancel word gives cancellation; otherwise a confirm word gives confirmation; otherwise a booking word gives a booking; otherwise a general inquiry. The type is the first listed type mentioned, upper-cased. "tomorrow" wins over "today". The time is the leftmost time expression. |
| Normalize.MatchClock | agent/conversational_agent.py:368-374 | A reading has at most two hour digits and two minute digits. |
| Normalize.ReadClock | agent/conversational_agent.py:368-374 | Any text that starts with one or two digits, an optional `:MM`, any whitespace and `AM` or `PM` reads as that hour, that minute (0 when omitted) and that half of the day, whatever follows. |
| Normalize.ClockHasLayout | agent/conversational_agent.py:368-374 | Conversely, every text with a reading starts with that layout. The match is anchored at the start only. |
| Normalize.To24Bijective | agent/conversational_agent.py:376-379 | Every hour of the day has exactly one 12-hour reading, with 12 AM as midnight and 12 PM as noon. |
| Normalize.Render | agent/conversational_agent.py:381 | The rendered text reads back as the 24-hour time exactly when hour and minute are in range. In range, it is the canonical `HH:MM` text of that time. |
| Normalize.ReadBack | agent/conversational_agent.py:381 | `HH:MM` built from an hour and a minute below 100 parses exactly when it is a real time of day, and to that time. |
| Normalize.NormalizeTime | agent/conversational_agent.py:365-383 | A clock reading of the upper-cased, stripped text yields the canonical `HH:MM` text of its 24-hour value, or text the time parser rejects when out of range. Text with no reading is returned upper-cased and stripped. |
| Normalize.TimeTokenIsClock | agent/conversational_agent.py:185-188 | Every time expression the fallback extracts has a reading once upper-cased and stripped. The reading is on the hour, its hour is the number the one or two leading digits spell, and it is PM exactly when the suffix is `pm` or `PM`. |
| Normalize.FallbackTimeNormalized | agent/conversational_agent.py:185-188 | The normaliser turns an extracted time expression into the canonical `HH:MM` text of its 24-hour hour on the hour. When that hour exceeds 23, the result is text the time parser rejects. |
| Normalize.NormalizeDate | agent/conversational_agent.py:347-354 | "today" and "tomorrow", in any case, yield the `YYYY-MM-DD` text of today and of the next day, which parses back as that date. The day after 9999-12-31 overflows. Other text is kept. |
| Dialogue.OfKind | agent/conversational_agent.py:223-229 | Returns exactly the available catalog vehicles of the requested type, as a sub-list of the catalog in its order. |
| Dialogue.Reset | agent/conversational_agent.py:406-415 | The conversation returns to its initial state and the stores are untouched. |
| Dialogue.AbsorbDateTime | agent/conversational_agent.py:212-220 | A present, non-empty date or time from the classifier replaces the remembered one, normalised. Others are kept. The overflow date is an error. |
| Dialogue.OfferVehicles | agent/conversational_agent.py:227-245 | Vehicles are offered exactly when a type is known and has available vehicles: the first up to three, and confirmation is then awaited. Otherwise the state is unchanged, and the reply asks for a type when none is known, or says there are no vehicles of the known type. |
| Dialogue.HandleTestDrive | agent/conversational_agent.py:207-245 | The intent and the type are recorded first. An apology is given exactly on the "tomorrow" overflow, with date and time kept. Otherwise date and time are absorbed and vehicles offered. When none are offered, the reply asks for a type or says there are none of that type. Bookings and catalog are untouched. |
| Dialogue.HandleInformation | agent/conversational_agent.py:259-266 | Details are given exactly when a model name is given and some catalog model contains it. They are of the first such vehicle in catalog order. Nothing changes. |
| Dialogue.HandleConfirmation | agent/conversational_agent.py:277-316 | Without an awaited confirmation, or without an available vehicle of the type, nothing changes. Otherwise the first such vehicle is selected. A missing date or time leads to a prompt for them. Otherwise a booking is attempted: success appends exactly that booking and resets the conversation; failure keeps the state and the list. An invalid date or time is reported with its validation reason. |
| Dialogue.HandleCancellation | agent/conversational_agent.py:324-325 | The conversation resets and bookings are untouched. |
| Dialogue.Step | agent/conversational_agent.py:87-99 | A turn leaves the hours and catalog alone. It either leaves the bookings alone or appends one confirmed booking with the new id. Test-drive, information and confirmation intents go to their handlers. General inquiries change nothing; cancellations reset. |
| Dialogue.ProcessMessage | agent/conversational_agent.py:71-138 | A parsed answer gives one turn on it. A reply that is not JSON gives one turn on the keyword fallback. An unusable answer gives an apology and changes nothing. Bookings change only by a confirmed booking. |
| Dialogue.StepKeepsNoDoubleBooking | agent/conversational_agent.py:296-302 | No turn ever creates a double booking. |
| Dialogue.StepKeepsUniqueIds | agent/conversational_agent.py:296-302 | With a fresh id, no turn duplicates a booking id. |
| Dialogue.RequestThenConfirmBooks | agent/conversational_agent.py:207-316 | A request naming a type with available vehicles, a date and a time, followed by a confirmation, books the first such vehicle at exactly the normalised date and time. It fails only when validation or the conflict check refuses. |
| Scenarios.DefaultGrid | agent/booking_agent.py:26-29 | The default day has 18 slots, from "09:00" to "17:30". |
| Scenarios.YesterdayRefused | agent/booking_agent.py:171-175 | A date before today is refused as past. |
| Scenarios.BeforeOpeningRefused | agent/booking_agent.py:189-193 | 08:30 falls before the default opening time and is refused as out of hours. |
| Scenarios.OpeningAndClosingAccepted | agent/booking_agent.py:189-195 | 09:00 and 18:00 are both accepted, because both ends of the hours are included. |
| Scenarios.NoThirtiethOfFebruary | agent/booking_agent.py:168 | "2025-02-30" does not parse and is refused as malformed. |
| Scenarios.DoubleBookingRefused | agent/booking_agent.py:103-108 | A booked slot refuses the same vehicle again, but accepts another vehicle. |
| Scenarios.TwoPm | agent/conversational_agent.py:365-383 | "2pm" normalises to "14:00". |
| Scenarios.HalfPastTwo | agent/conversational_agent.py:365-383 | " 2:30 pm " normalises to "14:30". |
| Scenarios.Midnight | agent/conversational_agent.py:378-379 | "12 AM" normalises to "00:00". |
| Scenarios.Noon | agent/conversational_agent.py:376-377 | "12pm" normalises to "12:00". |
| Scenarios.ThirteenPm | agent/conversational_agent.py:376-381 | "13pm" normalises to "25:00", which the time parser rejects. |
| Scenarios.CanonicalKept | agent/conversational_agent.py:383 | "14:00" has no suffix and is returned as given. |
| Scenarios.DateExamples | agent/conversational_agent.py:349-352 | "Tomorrow" on 2025-03-10 gives "2025-03-11", and "today" gives "2025-03-10". |
| Scenarios.DateKeptOrOverflow | agent/conversational_agent.py:351-354 | Other text is kept as given. "tomorrow" on 9999-12-31 has no next day. |
| Scenarios.FallbackExample | agent/conversational_agent.py:149-190 | "book a suv tomorrow at 2pm" reads as a test-drive booking for an SUV, "tomorrow", "2pm". |

## Behaviour worth knowing

- A failed booking at confirmation keeps the remembered date and time, selection included. Nothing clears them; only success resets the conversation.
- Rescheduling checks conflicts against every live booking, the moved one included. Moving a booking to its own slot is therefore refused as taken (`Scheduler.RescheduleToOwnSlotFails`).
- Rescheduling does not look at the status. A cancelled booking is moved and stays cancelled.
- The slot grid uses only the hour part of the opening and closing times. Validation uses the full times, so "18:00" is accepted but is never offered as a slot.
- The customer's name and phone on a booking made in conversation are always absent. The state always holds those keys, with no value, so the defaults in the lookup never apply.
- Only a reply that is not JSON falls back to the keywords. A failed model call, JSON that is not an object, or an object without `intent` raises inside the turn's handler, and the turn apologises and changes nothing (`Dialogue.ProcessMessage`).
- The time normaliser does not check the hour. "13pm" becomes "25:00", which validation then rejects as malformed.

## Left out

- File persistence: loading, seeding and saving the JSON databases. Each store is an in-memory value.
- Clocks: `datetime.now()` is the `today` parameter. The created/cancelled/rescheduled timestamps are not modelled.
- Booking ids: the random uuid prefix is the `newId` parameter. Uniqueness is proved under the assumption that it is fresh.
- The language-model call: its outcome is a parameter. Decoding the JSON fields into the classifier's answer is not modelled. Answers whose fields are not strings, which would raise inside a handler, are not modelled either.
- Reply wording, greetings, vehicle features and specifications: replies are modelled by kind and the data they carry.
- Text handling covers ASCII only: case mapping, `\d` and `\w`. `str.isspace` and `\s` use Python's full whitespace set.
- Calendar.FormatDate: years below 1000 are zero-padded to four digits. The platform `strftime` may not pad them, and such dates arise only from a clock set before the year 1000.
- Calendar.ParseDate and Calendar.ParseTime: their own contracts state only the shape of an accepted text. What they accept is pinned down by the round trips `Calendar.ParseFormatDate` and `Calendar.ParseFormatTime`, by `Calendar.CanonicalTime`, and by the worked examples in `Scenarios`.
- Intent.TimeMatchAt: its own contract says only where a match ends. What the match reads as is stated by `Normalize.TimeTokenIsClock`, and its leftmost choice by `Intent.FindTime`.
- Normalize.MatchClock: its own contract bounds the hour and minute only. What it reads is stated for every input by `Normalize.ReadClock` and `Normalize.ClockHasLayout`.
- Scheduler.Create: the catch-all exception path (for example a vehicle record missing a key) is not modelled. Vehicles are well-formed records.
- Booking statuses other than confirmed and cancelled do not occur and are not modelled.
- Concurrency: the agents are single-threaded per conversation, and interleaving is not modelled.
- The "information request" answer is produced only by the language model. The fallback never produces it.

=== FILE: calendar.dfy ===
/**
 * Calendar dates and times of day: the proleptic Gregorian calendar of Python's `datetime`
 * (years 1 to 9999), the canonical `YYYY-MM-DD` and `HH:MM` renderings, and the parsers that
 * `datetime.strptime(s, '%Y-%m-%d')` and `datetime.strptime(s, '%H:%M')` amount to.
 */
module Calendar {
  import opened Common
  import opened Text

  datatype Date = Date(year: int, month: int, day: int)

  /** A time of day as minutes since midnight. */
  type TimeOfDay = m: int | 0 <= m < 1440

  predicate IsLeapYear(y: int)
  {
    y % 4 == 0 && (y % 100 != 0 || y % 400 == 0)
  }

  function DaysInMonth(y: int, m: int): int
    requires 1 <= m <= 12
  {
    if m == 2 then (if IsLeapYear(y) then 29 else 28)
    else if m == 4 || m == 6 || m == 9 || m == 11 then 30
    else 31
  }

  /** The dates `datetime.date` can represent. */
  predicate ValidDate(d: Date)
  {
    1 <= d.year <= 9999 && 1 <= d.month <= 12 && 1 <= d.day <= DaysInMonth(d.year, d.month)
  }

  /** Chronological order: lexicographic on (year, month, day). */
  predicate Before(a: Date, b: Date)
  {
    a.year < b.year || (a.year == b.year && (a.month < b.month || (a.month == b.month && a.day < b.day)))
  }

  /** `d + timedelta(days=1)`; `None` stands for the `OverflowError` past 9999-12-31. */
  function NextDay(d: Date): (r: Option<Date>)
    requires ValidDate(d)
    ensures r.None? <==> d == Date(9999, 12, 31)
    ensures r.Some? ==> ValidDate(r.value) && Before(d, r.value)
    ensures r.Some? ==> forall e :: ValidDate(e) && Before(d, e) ==> !Before(e, r.value)
  {
    if d.day < DaysInMonth(d.year, d.month) then Some(Date(d.year, d.month, d.day + 1))
    else if d.month < 12 then Some(Date(d.year, d.month + 1, 1))
    else if d.year < 9999 then Some(Date(d.year + 1, 1, 1))
    else None
  }

  /** `strftime('%Y-%m-%d')`. */
  function FormatDate(d: Date): (r: string)
    requires ValidDate(d)
    ensures |r| == 10 && r[4] == '-' && r[7] == '-'
    ensures forall i :: 0 <= i < 10 && i != 4 && i != 7 ==> IsDigit(r[i])
  {
    Pad4(d.year) + "-" + Pad2(d.month) + "-" + Pad2(d.day)
  }

  /** `strftime('%H:%M')`. */
  function FormatTime(t: TimeOfDay): (r: string)
    ensures |r| == 5
  {
    Pad2(t / 60) + ":" + Pad2(t % 60)
  }

  /**
   * The `%m` field at index `i` together with the '-' that follows it: "1".."9", "01".."09"
   * or "10".."12". Yields the month and the index after the separator.
   */
  function MonthField(s: string, i: nat): (r: Option<(int, nat)>)
    ensures r.Some? ==> 1 <= r.value.0 <= 12 && i + 2 <= r.value.1 <= i + 3 && r.value.1 <= |s|
  {
    if i + 1 < |s| && IsDigit(s[i]) && s[i] != '0' && s[i + 1] == '-' then
      Some((DigitValue(s[i]), i + 2))
    else if i + 2 < |s| && IsDigit(s[i]) && IsDigit(s[i + 1]) && s[i + 2] == '-'
         && 1 <= Num2(s[i], s[i + 1]) <= 12 then
      Some((Num2(s[i], s[i + 1]), i + 3))
    else None
  }

  /**
   * The `%d` field, which must use up the rest of the text: "1".."9", " 1".." 9" or
   * "01".."31".
   */
  function DayField(rest: string): (r: Option<int>)
    ensures r.Some? ==> 1 <= r.value <= 31 && 1 <= |rest| <= 2
  {
    if |rest| == 1 && IsDigit(rest[0]) && rest[0] != '0' then Some(DigitValue(rest[0]))
    else if |rest| == 2 && rest[0] == ' ' && IsDigit(rest[1]) && rest[1] != '0' then Some(DigitValue(rest[1]))
    else if |rest| == 2 && IsDigit(rest[0]) && IsDigit(rest[1]) && 1 <= Num2(rest[0], rest[1]) <= 31 then
      Some(Num2(rest[0], rest[1]))
    else None
  }

  /**
   * `datetime.strptime(s, '%Y-%m-%d')`: four year digits, the month and day fields, and a
   * day that exists in that month of that year; `None` is the `ValueError`.
   */
  function ParseDate(s: string): (r: Option<Date>)
    ensures r.Some? ==> ValidDate(r.value)
    ensures r.Some? ==> 8 <= |s| <= 10 && s[4] == '-' && AllDigits(s[..4])
  {
    if |s| < 7 || !(IsDigit(s[0]) && IsDigit(s[1]) && IsDigit(s[2]) && IsDigit(s[3])) || s[4] != '-' then None
    else
      var year := 1000 * DigitValue(s[0]) + 100 * DigitValue(s[1]) + 10 * DigitValue(s[2]) + DigitValue(s[3]);
      match MonthField(s, 5)
      case None => None
      case Some((month, j)) =>
        match DayField(s[j..])
        case None => None
        case Some(day) =>
          if ValidDate(Date(year, month, day)) then Some(Date(year, month, day)) else None
  }

  /**
   * `datetime.strptime(s, '%H:%M')`: one or two hour digits up to 23, ':', and one or two
   * minute digits up to 59, with nothing after them; `None` is the `ValueError`.
   */
  function ParseTime(s: string): (r: Option<TimeOfDay>)
    ensures r.Some? ==> 3 <= |s| <= 5 && (s[1] == ':' || s[2] == ':')
  {
    var colon := if |s| >= 2 && s[1] == ':' then 1 else if |s| >= 3 && s[2] == ':' then 2 else 0;
    if colon == 0 || !AllDigits(s[..colon]) then None
    else
      var hour := if colon == 1 then DigitValue(s[0]) else Num2(s[0], s[1]);
      var m := s[colon + 1..];
      if |m| == 1 && IsDigit(m[0]) && hour <= 23 then Some(hour * 60 + DigitValue(m[0]))
      else if |m| == 2 && IsDigit(m[0]) && IsDigit(m[1]) && hour <= 23 && Num2(m[0], m[1]) <= 59 then
        Some(hour * 60 + Num2(m[0], m[1]))
      else None
  }

  /** Every rendered date reads back as itself. */
  lemma ParseFormatDate(d: Date)
    requires ValidDate(d)
    ensures ParseDate(FormatDate(d)) == Some(d)
  {
    var s := FormatDate(d);
    var y := Pad4(d.year);
    assert s[..4] == y && s[4] == '-';
    assert s[5..7] == Pad2(d.month) && s[7] == '-';
    assert s[8..] == Pad2(d.day);
    assert MonthField(s, 5) == Some((d.month, 8));
  }

  /** Every rendered time of day reads back as itself. */
  lemma ParseFormatTime(t: TimeOfDay)
    ensures ParseTime(FormatTime(t)) == Some(t)
  {
    var s := FormatTime(t);
    assert s[..2] == Pad2(t / 60) && s[2] == ':' && s[3..] == Pad2(t % 60);
  }

  /**
   * The five-character readings are exactly the canonical ones: `strptime` also accepts
   * "9:30" or "09:5", but a five-character text it accepts is the `HH:MM` of its value.
   */
  lemma CanonicalTime(s: string, t: TimeOfDay)
    requires ParseTime(s) == Some(t) && |s| == 5
    ensures s == FormatTime(t)
  {
    assert s[2] == ':';
    var hour, minute := Num2(s[0], s[1]), Num2(s[3], s[4]);
    assert t == hour * 60 + minute && minute <= 59;
    assert t / 60 == hour && t % 60 == minute;
    Pad2OfNum2(s[0], s[1]);
    Pad2OfNum2(s[3], s[4]);
    assert s == [s[0], s[1]] + ":" + [s[3], s[4]];
  }

  /**
   * The ten-character dates the parser accepts with a digit where the day starts are exactly
   * the canonical ones: `strptime` also accepts "2025-3-10" or "2025-03- 5", but a text
   * like that which it accepts is the `YYYY-MM-DD` of its value.
   */
  lemma CanonicalDate(s: string, d: Date)
    requires ParseDate(s) == Some(d) && |s| == 10 && s[8] != ' '
    ensures s == FormatDate(d)
  {
    assert MonthField(s, 5).Some? && MonthField(s, 5).value.1 == 8;
    assert IsDigit(s[5]) && IsDigit(s[6]) && d.month == Num2(s[5], s[6]);
    assert s[8..] == [s[8], s[9]];
    assert IsDigit(s[8]) && IsDigit(s[9]) && d.day == Num2(s[8], s[9]);
    Pad4OfDigits(s[0], s[1], s[2], s[3]);
    Pad2OfNum2(s[5], s[6]);
    Pad2OfNum2(s[8], s[9]);
    assert s == [s[0], s[1], s[2], s[3]] + "-" + [s[5], s[6]] + "-" + [s[8], s[9]];
  }

  /** Distinct times of day never render as the same text. */
  lemma FormatTimeInjective(a: TimeOfDay, b: TimeOfDay)
    requires FormatTime(a) == FormatTime(b)
    ensures a == b
  {
    ParseFormatTime(a);
    ParseFormatTime(b);
  }
}

=== FILE: catalog.dfy ===
/**
 * The vehicle catalog (`KnowledgeAgent`): an ordered list of vehicles with search filters,
 * lookups, a price-ranked selection and an availability switch. The list is an in-memory
 * value; loading and saving it are not modelled.
 */
module Catalog {
  import opened Common
  import opened Text

  /**
   * One inventory record. `available` is absent when the record has no such key, which
   * every query treats as available. Features and specifications only feed reply text.
   */
  datatype Vehicle = Vehicle(
    id: string,
    make: string,
    model: string,
    year: int,
    kind: string,
    price: int,
    available: Option<bool>)

  /** `v.get('available', True)`. */
  predicate IsAvailable(v: Vehicle)
  {
    v.available != Some(false)
  }

  /** The keyword arguments of `search_vehicles`; `None` is an omitted argument. */
  datatype Query = Query(
    kind: Option<string>,
    make: Option<string>,
    model: Option<string>,
    maxPrice: Option<int>,
    minPrice: Option<int>)

  const NoQuery := Query(None, None, None, None, None)

  /** A text argument filters only when it is truthy: present and non-empty. */
  predicate TextGiven(o: Option<string>) { o.Some? && o.value != "" }

  /** A price argument filters only when it is truthy: present and non-zero. */
  predicate PriceGiven(o: Option<int>) { o.Some? && o.value != 0 }

  predicate KindOk(q: Query, v: Vehicle) { TextGiven(q.kind) ==> Upper(v.kind) == Upper(q.kind.value) }

  predicate MakeOk(q: Query, v: Vehicle) { TextGiven(q.make) ==> Lower(v.make) == Lower(q.make.value) }

  predicate ModelOk(q: Query, v: Vehicle) { TextGiven(q.model) ==> Contains(Lower(v.model), Lower(q.model.value)) }

  predicate MaxPriceOk(q: Query, v: Vehicle) { PriceGiven(q.maxPrice) ==> v.price <= q.maxPrice.value }

  predicate MinPriceOk(q: Query, v: Vehicle) { PriceGiven(q.minPrice) ==> v.price >= q.minPrice.value }

  /** The vehicles a query is meant to return, all criteria at once. */
  predicate Matches(q: Query, v: Vehicle)
  {
    KindOk(q, v) && MakeOk(q, v) && ModelOk(q, v) && MaxPriceOk(q, v) && MinPriceOk(q, v) && IsAvailable(v)
  }

  /** The reference reading of a search: one pass keeping the matching vehicles in list order. */
  function Selected(vs: seq<Vehicle>, q: Query): (r: seq<Vehicle>)
    ensures Subseq(r, vs)
    ensures forall i :: 0 <= i < |r| ==> Matches(q, r[i]) && r[i] in vs
    ensures forall i :: 0 <= i < |vs| && Matches(q, vs[i]) ==> vs[i] in r
    decreases |vs|
  {
    if vs == [] then []
    else
      var rest := Selected(vs[1..], q);
      if Matches(q, vs[0]) then
        assert ([vs[0]] + rest)[1..] == rest;
        [vs[0]] + rest
      else rest
  }

  lemma {:induction false} FilterIsSelected(vs: seq<Vehicle>, q: Query, p: Vehicle -> bool)
    requires forall v :: p(v) == Matches(q, v)
    ensures Filter(vs, p) == Selected(vs, q)
    decreases |vs|
  {
    if vs != [] {
      FilterIsSelected(vs[1..], q, p);
    }
  }

  /** The selection keeps every copy of a matching vehicle and no copy of any other. */
  lemma SelectedCount(vs: seq<Vehicle>, q: Query)
    ensures forall v :: multiset(Selected(vs, q))[v] == if Matches(q, v) then multiset(vs)[v] else 0
  {
    var p := (v: Vehicle) => Matches(q, v);
    FilterIsSelected(vs, q, p);
    FilterCount(vs, p);
  }

  /**
   * `search_vehicles`: the criteria are applied one after another (type, make, model,
   * maximum price, minimum price, availability), each stage a list comprehension over the
   * previous one; an omitted criterion keeps every vehicle. The staged result is the
   * one-pass selection of the vehicles matching every criterion.
   */
  function Search(vs: seq<Vehicle>, q: Query): (r: seq<Vehicle>)
    ensures r == Selected(vs, q)
  {
    var p1 := (v: Vehicle) => KindOk(q, v);
    var p2 := (v: Vehicle) => MakeOk(q, v);
    var p3 := (v: Vehicle) => ModelOk(q, v);
    var p4 := (v: Vehicle) => MaxPriceOk(q, v);
    var p5 := (v: Vehicle) => MinPriceOk(q, v);
    var r := Filter(Filter(Filter(Filter(Filter(Filter(vs, p1), p2), p3), p4), p5), IsAvailable);
    SearchStages(vs, q, p1, p2, p3, p4, p5);
    r
  }

  lemma SearchStages(vs: seq<Vehicle>, q: Query, p1: Vehicle -> bool, p2: Vehicle -> bool,
                     p3: Vehicle -> bool, p4: Vehicle -> bool, p5: Vehicle -> bool)
    requires forall v :: p1(v) == KindOk(q, v)
    requires forall v :: p2(v) == MakeOk(q, v)
    requires forall v :: p3(v) == ModelOk(q, v)
    requires forall v :: p4(v) == MaxPriceOk(q, v)
    requires forall v :: p5(v) == MinPriceOk(q, v)
    ensures Filter(Filter(Filter(Filter(Filter(Filter(vs, p1), p2), p3), p4), p5), IsAvailable) == Selected(vs, q)
  {
    var p12 := (v: Vehicle) => p1(v) && p2(v);
    var p123 := (v: Vehicle) => p12(v) && p3(v);
    var p1234 := (v: Vehicle) => p123(v) && p4(v);
    var p12345 := (v: Vehicle) => p1234(v) && p5(v);
    var all := (v: Vehicle) => p12345(v) && IsAvailable(v);
    FilterCompose(vs, p1, p2, p12);
    FilterCompose(vs, p12, p3, p123);
    FilterCompose(vs, p123, p4, p1234);
    FilterCompose(vs, p1234, p5, p12345);
    FilterCompose(vs, p12345, IsAvailable, all);
    FilterIsSelected(vs, q, all);
  }

  /** Without criteria the search returns exactly the available vehicles, in list order. */
  lemma SearchWithoutCriteria(vs: seq<Vehicle>)
    ensures Search(vs, NoQuery) == Filter(vs, IsAvailable)
  {
    FilterIsSelected(vs, NoQuery, IsAvailable);
  }

  /** `q'` keeps every criterion `q` applies (and may add more). */
  predicate Narrower(q': Query, q: Query)
  {
    && (TextGiven(q.kind) ==> q'.kind == q.kind)
    && (TextGiven(q.make) ==> q'.make == q.make)
    && (TextGiven(q.model) ==> q'.model == q.model)
    && (PriceGiven(q.maxPrice) ==> q'.maxPrice == q.maxPrice)
    && (PriceGiven(q.minPrice) ==> q'.minPrice == q.minPrice)
  }

  /** Supplying further criteria never enlarges the result, and keeps its order. */
  lemma SearchNarrows(vs: seq<Vehicle>, q': Query, q: Query)
    requires Narrower(q', q)
    ensures Subseq(Search(vs, q'), Search(vs, q))
  {
    var p' := (v: Vehicle) => Matches(q', v);
    var p := (v: Vehicle) => Matches(q, v);
    FilterMonotone(vs, p', p);
    FilterIsSelected(vs, q', p');
    FilterIsSelected(vs, q, p);
  }

  /** `k` is the position of the first vehicle carrying `id`. */
  predicate FirstWithId(vs: seq<Vehicle>, id: string, k: int)
  {
    0 <= k < |vs| && vs[k].id == id && forall j :: 0 <= j < k ==> vs[j].id != id
  }

  /** `get_vehicle_by_id`: the first vehicle with that id, available or not. */
  function ById(vs: seq<Vehicle>, id: string): (r: Option<Vehicle>)
    ensures r.None? <==> forall i :: 0 <= i < |vs| ==> vs[i].id != id
    ensures r.Some? ==> exists k :: FirstWithId(vs, id, k) && vs[k] == r.value
  {
    match FirstIndex(vs, (v: Vehicle) => v.id == id)
    case None => None
    case Some(k) =>
      assert FirstWithId(vs, id, k);
      Some(vs[k])
  }

  /** The model name contains the query, ignoring case. */
  predicate ModelMentions(v: Vehicle, name: string)
  {
    Contains(Lower(v.model), Lower(name))
  }

  /** `get_vehicle_by_model`: the first vehicle whose model contains the query, available or not. */
  function ByModel(vs: seq<Vehicle>, name: string): (r: Option<Vehicle>)
    ensures r.None? <==> forall i :: 0 <= i < |vs| ==> !ModelMentions(vs[i], name)
    ensures r.Some? ==> exists k :: 0 <= k < |vs| && vs[k] == r.value && ModelMentions(vs[k], name)
                                  && forall j :: 0 <= j < k ==> !ModelMentions(vs[j], name)
  {
    match FirstIndex(vs, v => ModelMentions(v, name))
    case None => None
    case Some(k) => Some(vs[k])
  }

  /** `get_all_vehicle_types`: the distinct `type` values, whatever their availability. */
  function AllKinds(vs: seq<Vehicle>): (r: set<string>)
    ensures forall t :: t in r <==> exists v :: v in vs && v.kind == t
    decreases |vs|
  {
    if vs == [] then {}
    else
      var rest := AllKinds(vs[1..]);
      assert forall v :: v in vs <==> v == vs[0] || v in vs[1..];
      {vs[0].kind} + rest
  }

  /** `get_vehicles_by_price_range`: available vehicles priced within the inclusive bounds. */
  function PriceRange(vs: seq<Vehicle>, lo: int, hi: int): (r: seq<Vehicle>)
    ensures Subseq(r, vs)
    ensures forall i :: 0 <= i < |r| ==> lo <= r[i].price <= hi && IsAvailable(r[i])
    ensures forall i :: 0 <= i < |vs| && lo <= vs[i].price <= hi && IsAvailable(vs[i]) ==> vs[i] in r
  {
    Filter(vs, (v: Vehicle) => lo <= v.price <= hi && IsAvailable(v))
  }

  /** The range query keeps every copy of an available vehicle within the bounds and nothing else. */
  lemma PriceRangeCount(vs: seq<Vehicle>, lo: int, hi: int)
    ensures forall v :: multiset(PriceRange(vs, lo, hi))[v] == if lo <= v.price <= hi && IsAvailable(v) then multiset(vs)[v] else 0
  {
    FilterCount(vs, (v: Vehicle) => lo <= v.price <= hi && IsAvailable(v));
  }

  /**
   * With non-zero bounds the range query is the search on the two price criteria; a zero
   * bound differs, because the search treats 0 as "no bound".
   */
  lemma PriceRangeIsSearch(vs: seq<Vehicle>, lo: int, hi: int)
    requires lo != 0 && hi != 0
    ensures PriceRange(vs, lo, hi) == Search(vs, Query(None, None, None, Some(hi), Some(lo)))
  {
    var q := Query(None, None, None, Some(hi), Some(lo));
    FilterIsSelected(vs, q, (v: Vehicle) => lo <= v.price <= hi && IsAvailable(v));
  }

  /** Prices never increase along the sequence. */
  predicate NonIncreasing(s: seq<Vehicle>)
  {
    forall i, j :: 0 <= i < j < |s| ==> s[i].price >= s[j].price
  }

  /** The vehicles of `s` priced exactly `p`, in order. */
  function WithPrice(s: seq<Vehicle>, p: int): seq<Vehicle>
    decreases |s|
  {
    if s == [] then []
    else if s[0].price == p then [s[0]] + WithPrice(s[1..], p)
    else WithPrice(s[1..], p)
  }

  /** Puts `x` in front of the first vehicle that is not dearer than it. */
  function InsertByPrice(x: Vehicle, s: seq<Vehicle>): (r: seq<Vehicle>)
    requires NonIncreasing(s)
    ensures NonIncreasing(r)
    ensures |r| == |s| + 1
    ensures multiset(r) == multiset(s) + multiset{x}
    ensures r[0] == x || (s != [] && r[0] == s[0])
    decreases |s|
  {
    if s == [] || s[0].price <= x.price then
      [x] + s
    else
      var rest := InsertByPrice(x, s[1..]);
      ConsNonIncreasing(s[0], rest);
      assert s == [s[0]] + s[1..];
      assert multiset(s) == multiset{s[0]} + multiset(s[1..]);
      [s[0]] + rest
  }

  lemma ConsNonIncreasing(a: Vehicle, s: seq<Vehicle>)
    requires NonIncreasing(s) && (s == [] || s[0].price <= a.price)
    ensures NonIncreasing([a] + s)
  {
    var r := [a] + s;
    forall i, j | 0 <= i < j < |r|
      ensures r[i].price >= r[j].price
    {
      assert r[j] == s[j - 1];
      if i > 0 {
        assert r[i] == s[i - 1];
      }
    }
  }

  /** Inserting `x` puts it in front of every vehicle of its own price. */
  lemma {:induction false} InsertByPriceStable(x: Vehicle, s: seq<Vehicle>, p: int)
    requires NonIncreasing(s)
    ensures WithPrice(InsertByPrice(x, s), p) == if x.price == p then [x] + WithPrice(s, p) else WithPrice(s, p)
    decreases |s|
  {
    if s == [] || s[0].price <= x.price {
      assert ([x] + s)[1..] == s;
    } else {
      InsertByPriceStable(x, s[1..], p);
      assert ([s[0]] + InsertByPrice(x, s[1..]))[1..] == InsertByPrice(x, s[1..]);
    }
  }

  /**
   * `sorted(s, key=price, reverse=True)` by insertion: dearest first, and a permutation
   * of `s`.
   */
  function SortByPriceDesc(s: seq<Vehicle>): (r: seq<Vehicle>)
    ensures NonIncreasing(r)
    ensures |r| == |s|
    ensures multiset(r) == multiset(s)
    decreases |s|
  {
    if s == [] then []
    else
      var sorted := SortByPriceDesc(s[1..]);
      var r := InsertByPrice(s[0], sorted);
      assert s == [s[0]] + s[1..];
      assert multiset(s) == multiset{s[0]} + multiset(s[1..]);
      r
  }

  /** The sort is stable: vehicles of equal price keep their relative order. */
  lemma {:induction false} SortByPriceDescStable(s: seq<Vehicle>, p: int)
    ensures WithPrice(SortByPriceDesc(s), p) == WithPrice(s, p)
    decreases |s|
  {
    if s != [] {
      SortByPriceDescStable(s[1..], p);
      InsertByPriceStable(s[0], SortByPriceDesc(s[1..]), p);
    }
  }

  /**
   * `get_featured_vehicles(count)`: the first `count` available vehicles by descending
   * price (a negative count drops that many from the end, as a Python slice does). No
   * available vehicle left out is dearer than one that was picked.
   */
  function Featured(vs: seq<Vehicle>, count: int): (r: seq<Vehicle>)
    ensures forall i :: 0 <= i < |r| ==> IsAvailable(r[i]) && r[i] in vs
    ensures multiset(r) <= multiset(Filter(vs, IsAvailable))
    ensures NonIncreasing(r)
    ensures var n := |Filter(vs, IsAvailable)|; |r| == if count >= 0 then Min(count, n) else Max(0, n + count)
    ensures forall i, k :: 0 <= i < |r| && 0 <= k < |vs| && IsAvailable(vs[k]) && vs[k].price > r[i].price
              ==> vs[k] in r
    ensures |r| > 0 ==> forall p :: p > r[|r| - 1].price ==> WithPrice(r, p) == WithPrice(Filter(vs, IsAvailable), p)
  {
    var r := Prefix(SortByPriceDesc(Filter(vs, IsAvailable)), count);
    FeaturedShape(vs, count, r);
    KeptGroups(Filter(vs, IsAvailable), r);
    r
  }

  /** The facts about the cut of the sorted available vehicles, proved apart from `Featured`. */
  lemma FeaturedShape(vs: seq<Vehicle>, count: int, r: seq<Vehicle>)
    requires r == Prefix(SortByPriceDesc(Filter(vs, IsAvailable)), count)
    ensures |r| <= |SortByPriceDesc(Filter(vs, IsAvailable))| && r == SortByPriceDesc(Filter(vs, IsAvailable))[..|r|]
    ensures forall i :: 0 <= i < |r| ==> IsAvailable(r[i]) && r[i] in vs
    ensures multiset(r) <= multiset(Filter(vs, IsAvailable))
    ensures NonIncreasing(r)
    ensures var n := |Filter(vs, IsAvailable)|; |r| == if count >= 0 then Min(count, n) else Max(0, n + count)
    ensures forall i, k :: 0 <= i < |r| && 0 <= k < |vs| && IsAvailable(vs[k]) && vs[k].price > r[i].price
              ==> vs[k] in r
  {
    var avail := Filter(vs, IsAvailable);
    var sorted := SortByPriceDesc(avail);
    assert |sorted| == |avail|;
    assert r == sorted[..|r|];
    TopOfSorted(vs, avail, sorted, r);
    PrefixMultiset(sorted, |r|);
  }

  /**
   * Every price above the last one kept is kept in full: its whole group, in input order,
   * sits before the cut of the stable sort.
   */
  lemma KeptGroups(avail: seq<Vehicle>, r: seq<Vehicle>)
    requires |r| <= |SortByPriceDesc(avail)| && r == SortByPriceDesc(avail)[..|r|]
    ensures |r| > 0 ==> forall p :: p > r[|r| - 1].price ==> WithPrice(r, p) == WithPrice(avail, p)
  {
    var sorted := SortByPriceDesc(avail);
    forall p | |r| > 0 && p > r[|r| - 1].price
      ensures WithPrice(r, p) == WithPrice(avail, p)
    {
      SortByPriceDescStable(avail, p);
      WithPriceFullPrefix(sorted, |r|, p);
    }
  }

  /** In a price-descending sequence, a price above the n-th has its whole group among the first n. */
  lemma {:induction false} WithPriceFullPrefix(s: seq<Vehicle>, n: int, p: int)
    requires NonIncreasing(s) && 0 < n <= |s| && p > s[n - 1].price
    ensures WithPrice(s[..n], p) == WithPrice(s, p)
    decreases n
  {
    assert s[..n][0] == s[0] && s[..n][1..] == s[1..][..n - 1];
    if n == 1 {
      WithPriceBelow(s[1..], p);
      assert WithPrice(s[1..][..0], p) == [];
    } else {
      WithPriceFullPrefix(s[1..], n - 1, p);
    }
  }

  /** No vehicle has price `p` when all are cheaper. */
  lemma {:induction false} WithPriceBelow(s: seq<Vehicle>, p: int)
    requires forall i :: 0 <= i < |s| ==> s[i].price < p
    ensures WithPrice(s, p) == []
    decreases |s|
  {
    if s != [] {
      WithPriceBelow(s[1..], p);
    }
  }

  lemma PrefixMultiset(s: seq<Vehicle>, n: int)
    requires 0 <= n <= |s|
    ensures multiset(s[..n]) <= multiset(s)
  {
    assert s == s[..n] + s[n..];
  }

  lemma TopOfSorted(vs: seq<Vehicle>, avail: seq<Vehicle>, sorted: seq<Vehicle>, r: seq<Vehicle>)
    requires forall i :: 0 <= i < |avail| ==> IsAvailable(avail[i]) && avail[i] in vs
    requires forall k :: 0 <= k < |vs| && IsAvailable(vs[k]) ==> vs[k] in avail
    requires NonIncreasing(sorted) && multiset(sorted) == multiset(avail)
    requires |r| <= |sorted| && r == sorted[..|r|]
    ensures forall i :: 0 <= i < |r| ==> IsAvailable(r[i]) && r[i] in vs
    ensures NonIncreasing(r)
    ensures forall i, k :: 0 <= i < |r| && 0 <= k < |vs| && IsAvailable(vs[k]) && vs[k].price > r[i].price
              ==> vs[k] in r
  {
    forall i | 0 <= i < |r|
      ensures IsAvailable(r[i]) && r[i] in vs
    {
      assert r[i] == sorted[i];
      PermutationMember(sorted, avail, i);
    }
    forall i, k | 0 <= i < |r| && 0 <= k < |vs| && IsAvailable(vs[k]) && vs[k].price > r[i].price
      ensures vs[k] in r
    {
      assert vs[k] in avail;
      assert r[i] == sorted[i];
      PrefixHoldsDearer(sorted, avail, |r|, i, vs[k]);
    }
  }

  lemma PermutationMember(a: seq<Vehicle>, b: seq<Vehicle>, i: int)
    requires multiset(a) == multiset(b) && 0 <= i < |a|
    ensures a[i] in b
  {
    assert a[i] in multiset(a);
  }

  /** In a price-sorted permutation of `b`, any vehicle of `b` dearer than the i-th of the first `n` is among them. */
  lemma PrefixHoldsDearer(sorted: seq<Vehicle>, b: seq<Vehicle>, n: int, i: int, v: Vehicle)
    requires NonIncreasing(sorted) && multiset(sorted) == multiset(b)
    requires 0 <= i < n <= |sorted| && v in b && v.price > sorted[i].price
    ensures v in sorted[..n]
  {
    assert v in multiset(sorted);
    var m :| 0 <= m < |sorted| && sorted[m] == v;
    assert m < n;
    assert sorted[..n][m] == v;
  }

  /** The featured list is a stable descending sort of the available vehicles, cut after `count`. */
  lemma FeaturedIsStableTop(vs: seq<Vehicle>, count: int, p: int)
    requires count >= |Filter(vs, IsAvailable)|
    ensures multiset(Featured(vs, count)) == multiset(Filter(vs, IsAvailable))
    ensures WithPrice(Featured(vs, count), p) == WithPrice(Filter(vs, IsAvailable), p)
  {
    SortByPriceDescStable(Filter(vs, IsAvailable), p);
  }

  /** Cutting a sequence short cuts each of its price groups short. */
  lemma {:induction false} WithPriceOfPrefix(s: seq<Vehicle>, n: int, p: int)
    requires 0 <= n <= |s|
    ensures |WithPrice(s[..n], p)| <= |WithPrice(s, p)|
    ensures WithPrice(s[..n], p) == WithPrice(s, p)[..|WithPrice(s[..n], p)|]
    decreases n
  {
    if n > 0 {
      WithPriceOfPrefix(s[1..], n - 1, p);
      assert s[..n][1..] == s[1..][..n - 1];
    }
  }

  /**
   * Whatever the count, vehicles of one price appear in the featured list in catalogue
   * order, and they are the first ones of that price: the sort is stable and the cut keeps
   * a prefix.
   */
  lemma FeaturedKeepsTies(vs: seq<Vehicle>, count: int, p: int)
    ensures var r := Featured(vs, count);
            && |WithPrice(r, p)| <= |WithPrice(Filter(vs, IsAvailable), p)|
            && WithPrice(r, p) == WithPrice(Filter(vs, IsAvailable), p)[..|WithPrice(r, p)|]
  {
    var avail := Filter(vs, IsAvailable);
    var sorted := SortByPriceDesc(avail);
    var r := Featured(vs, count);
    assert r == sorted[..|r|];
    SortByPriceDescStable(avail, p);
    WithPriceOfPrefix(sorted, |r|, p);
  }

  /**
   * `update_vehicle_availability`: sets the flag of the first vehicle with that id and
   * reports whether there was one; nothing else changes.
   */
  function SetAvailability(vs: seq<Vehicle>, id: string, flag: bool): (r: (bool, seq<Vehicle>))
    ensures |r.1| == |vs|
    ensures r.0 <==> exists i :: 0 <= i < |vs| && vs[i].id == id
    ensures !r.0 ==> r.1 == vs
    ensures r.0 ==> exists k :: FirstWithId(vs, id, k) && r.1 == vs[k := vs[k].(available := Some(flag))]
  {
    match FirstIndex(vs, (v: Vehicle) => v.id == id)
    case None => (false, vs)
    case Some(k) =>
      assert FirstWithId(vs, id, k);
      (true, vs[k := vs[k].(available := Some(flag))])
  }
}

=== FILE: common.dfy ===
/** Containers and sequence combinators shared by the catalog, the scheduler and the dialogue. */
module Common {

  /** A value that may be missing (Python's `None`). */
  datatype Option<+T> = None | Some(value: T)

  /** The outcome of an operation that can fail with an enumerated error. */
  datatype Result<+T, +E> = Ok(value: T) | Err(error: E)

  function Min(a: int, b: int): int { if a <= b then a else b }

  function Max(a: int, b: int): int { if a >= b then a else b }

  /** `a` can be obtained from `b` by deleting elements, keeping the order of the rest. */
  predicate Subseq<T(==)>(a: seq<T>, b: seq<T>)
    decreases |b|
  {
    if a == [] then true
    else if b == [] then false
    else (a[0] == b[0] && Subseq(a[1..], b[1..])) || Subseq(a, b[1..])
  }

  lemma {:induction false} SubseqCons<T>(a: seq<T>, x: T, b: seq<T>)
    requires Subseq(a, b)
    ensures Subseq(a, [x] + b)
  {
    if a != [] {
      assert ([x] + b)[1..] == b;
    }
  }

  lemma {:induction false} SubseqRefl<T>(a: seq<T>)
    ensures Subseq(a, a)
    decreases |a|
  {
    if a != [] {
      SubseqRefl(a[1..]);
    }
  }

  lemma {:induction false} SubseqTrans<T>(a: seq<T>, b: seq<T>, c: seq<T>)
    requires Subseq(a, b) && Subseq(b, c)
    ensures Subseq(a, c)
    decreases |c|
  {
    if a == [] {
    } else if Subseq(b, c[1..]) {
      SubseqTrans(a, b, c[1..]);
    } else {
      // b[0] == c[0] and Subseq(b[1..], c[1..])
      if a[0] == b[0] && Subseq(a[1..], b[1..]) {
        SubseqTrans(a[1..], b[1..], c[1..]);
      } else {
        SubseqTrans(a, b[1..], c[1..]);
      }
    }
  }

  /** The elements of `s` satisfying `p`, in their original order (a Python list comprehension). */
  function Filter<T(==)>(s: seq<T>, p: T -> bool): (r: seq<T>)
    ensures Subseq(r, s)
    ensures forall i :: 0 <= i < |r| ==> p(r[i]) && r[i] in s
    ensures forall i :: 0 <= i < |s| && p(s[i]) ==> s[i] in r
    ensures |r| <= |s|
    decreases |s|
  {
    if s == [] then []
    else
      var rest := Filter(s[1..], p);
      if p(s[0]) then
        assert ([s[0]] + rest)[1..] == rest;
        [s[0]] + rest
      else
        rest
  }

  /**
   * Filtering keeps every occurrence of a value satisfying `p` and none of any other value:
   * the result holds each value exactly as often as the input does, or not at all.
   */
  lemma {:induction false} FilterCount<T>(s: seq<T>, p: T -> bool)
    ensures forall x :: multiset(Filter(s, p))[x] == if p(x) then multiset(s)[x] else 0
    decreases |s|
  {
    if s != [] {
      FilterCount(s[1..], p);
      var rest := Filter(s[1..], p);
      assert s == [s[0]] + s[1..];
      assert multiset(s) == multiset{s[0]} + multiset(s[1..]);
      assert multiset([s[0]] + rest) == multiset{s[0]} + multiset(rest);
    }
  }

  /** Filtering by a stronger predicate keeps a subsequence of filtering by a weaker one. */
  lemma {:induction false} FilterMonotone<T>(s: seq<T>, p: T -> bool, q: T -> bool)
    requires forall x :: p(x) ==> q(x)
    ensures Subseq(Filter(s, p), Filter(s, q))
    decreases |s|
  {
    if s != [] {
      FilterMonotone(s[1..], p, q);
      if q(s[0]) {
        SubseqCons(Filter(s[1..], p), s[0], Filter(s[1..], q));
        if p(s[0]) {
          assert ([s[0]] + Filter(s[1..], q))[1..] == Filter(s[1..], q);
          assert ([s[0]] + Filter(s[1..], p))[1..] == Filter(s[1..], p);
        }
      }
    }
  }

  /** Two successive filters are one filter by the conjunction. */
  lemma {:induction false} FilterCompose<T>(s: seq<T>, p: T -> bool, q: T -> bool, pq: T -> bool)
    requires forall x :: pq(x) == (p(x) && q(x))
    ensures Filter(Filter(s, p), q) == Filter(s, pq)
    decreases |s|
  {
    if s != [] {
      FilterCompose(s[1..], p, q, pq);
      if p(s[0]) {
        assert ([s[0]] + Filter(s[1..], p))[1..] == Filter(s[1..], p);
      }
    }
  }

  /** Filters that agree on every element of `s` give the same result. */
  lemma {:induction false} FilterExt<T>(s: seq<T>, p: T -> bool, q: T -> bool)
    requires forall i :: 0 <= i < |s| ==> p(s[i]) == q(s[i])
    ensures Filter(s, p) == Filter(s, q)
    decreases |s|
  {
    if s != [] {
      FilterExt(s[1..], p, q);
    }
  }

  /** The index of the first element satisfying `p`, as a linear scan that stops at the first hit. */
  function FirstIndex<T>(s: seq<T>, p: T -> bool): (r: Option<nat>)
    ensures r.None? <==> forall i :: 0 <= i < |s| ==> !p(s[i])
    ensures r.Some? ==> r.value < |s| && p(s[r.value]) && forall j :: 0 <= j < r.value ==> !p(s[j])
    decreases |s|
  {
    if s == [] then None
    else if p(s[0]) then Some(0)
    else
      match FirstIndex(s[1..], p)
      case None => None
      case Some(k) =>
        assert forall j :: 1 <= j < k + 1 ==> s[j] == s[1..][j - 1];
        Some(k + 1)
  }

  /** Python's prefix slice `s[:n]`, where a negative `n` counts from the end. */
  function Prefix<T>(s: seq<T>, n: int): (r: seq<T>)
    ensures |r| == if n >= 0 then Min(n, |s|) else Max(0, |s| + n)
    ensures r == s[..|r|]
  {
    if n >= |s| then s
    else if n >= 0 then s[..n]
    else if |s| + n > 0 then s[..|s| + n]
    else []
  }
}

=== FILE: dialogue.dfy ===
/**
 * The conversational agent: a per-conversation state and one turn of dialogue, which
 * classifies the utterance (the language model's answer, or the keyword fallback when there
 * is none), dispatches on the intent, and may read the catalog and create a booking.
 *
 * A turn is a function of the world before it, the utterance, the classifier's answer, the
 * current date and the id the scheduler would give a new booking. Replies are described by
 * their kind and the data they carry, not by their wording.
 */
module Dialogue {
  import opened Common
  import opened Text
  import opened Calendar
  import Catalog
  import Scheduler
  import opened Intent
  import opened Normalize

  /** What the assistant remembers between turns of one conversation. */
  datatype ConvState = ConvState(
    intent: Option<Tag>,
    vehicleType: Option<string>,
    selected: Option<Catalog.Vehicle>,
    date: Option<string>,
    time: Option<string>,
    awaitingConfirmation: bool,
    customerName: Option<string>,
    customerPhone: Option<string>)

  /** A fresh conversation, and the state every reset returns to. */
  const Initial := ConvState(None, None, None, None, None, false, None, None)

  /** The kind of answer a turn gives, with the data it is built from. */
  datatype Reply =
    | NoVehiclesOfType(kind: string)
    | PresentVehicles(kind: string, options: seq<Catalog.Vehicle>)
    | AskVehicleType
    | VehicleDetails(vehicle: Catalog.Vehicle)
    | InformationPrompt
    | NothingToConfirm
    | AskDateTime
    | BookingConfirmed(booking: Scheduler.Booking)
    | BookingFailed(error: Scheduler.BookingError)
    | ThanksForConfirming
    | Dismissed
    | GeneralHelp
    | Apology

  /** The conversation together with the booking store and the catalog it drives. */
  datatype World = World(
    state: ConvState,
    bookings: seq<Scheduler.Booking>,
    hours: Scheduler.Hours,
    catalog: seq<Catalog.Vehicle>)

  datatype Turn = Turn(world: World, reply: Reply)

  /** Python truthiness of an optional text value. */
  predicate Truthy(o: Option<string>) { o.Some? && o.value != "" }

  /** `search_vehicles(vehicle_type=kind)`. */
  function OfKind(catalog: seq<Catalog.Vehicle>, kind: Option<string>): (r: seq<Catalog.Vehicle>)
    ensures Subseq(r, catalog)
    ensures forall i :: 0 <= i < |r| ==> r[i] in catalog && Catalog.IsAvailable(r[i])
    ensures Truthy(kind) ==> forall i :: 0 <= i < |r| ==> Upper(r[i].kind) == Upper(kind.value)
    ensures forall i :: (&& 0 <= i < |catalog| && Catalog.IsAvailable(catalog[i])
                         && (Truthy(kind) ==> Upper(catalog[i].kind) == Upper(kind.value))) ==> catalog[i] in r
  {
    var q := Catalog.Query(kind, None, None, None, None);
    var r := Catalog.Search(catalog, q);
    KindSelection(catalog, kind, r);
    r
  }

  /** What the one-pass selection with only a type criterion keeps. */
  lemma KindSelection(catalog: seq<Catalog.Vehicle>, kind: Option<string>, r: seq<Catalog.Vehicle>)
    requires r == Catalog.Selected(catalog, Catalog.Query(kind, None, None, None, None))
    ensures Subseq(r, catalog)
    ensures forall i :: 0 <= i < |r| ==> r[i] in catalog && Catalog.IsAvailable(r[i])
    ensures Truthy(kind) ==> forall i :: 0 <= i < |r| ==> Upper(r[i].kind) == Upper(kind.value)
    ensures forall i :: (&& 0 <= i < |catalog| && Catalog.IsAvailable(catalog[i])
                         && (Truthy(kind) ==> Upper(catalog[i].kind) == Upper(kind.value))) ==> catalog[i] in r
  {
    var q := Catalog.Query(kind, None, None, None, None);
    forall i | 0 <= i < |r|
      ensures r[i] in catalog && Catalog.IsAvailable(r[i])
      ensures Truthy(kind) ==> Upper(r[i].kind) == Upper(kind.value)
    {
      assert Catalog.Matches(q, r[i]);
    }
    forall i | && 0 <= i < |catalog| && Catalog.IsAvailable(catalog[i])
               && (Truthy(kind) ==> Upper(catalog[i].kind) == Upper(kind.value))
      ensures catalog[i] in r
    {
      assert Catalog.Matches(q, catalog[i]);
    }
  }

  /** `_reset_conversation_state`. */
  function Reset(w: World): (r: World)
    ensures r.state == Initial && !r.state.awaitingConfirmation
    ensures r.bookings == w.bookings && r.hours == w.hours && r.catalog == w.catalog
  {
    w.(state := Initial)
  }

  /**
   * The date and time the classifier found, normalised, overwrite the remembered ones; absent
   * or empty ones leave them as they were. `None` is the overflow of the day after 9999-12-31.
   */
  function AbsorbDateTime(s: ConvState, info: IntentInfo, today: Date): (r: Option<ConvState>)
    requires ValidDate(today)
    ensures r.None? <==> Truthy(info.date) && Lower(info.date.value) == "tomorrow" && today == Date(9999, 12, 31)
    ensures r.Some? ==>
              && r.value == s.(date := r.value.date, time := r.value.time)
              && r.value.date == (if Truthy(info.date) then NormalizeDate(info.date.value, today) else s.date)
              && r.value.time == (if Truthy(info.time) then Some(NormalizeTime(info.time.value)) else s.time)
  {
    if Truthy(info.date) && NormalizeDate(info.date.value, today).None? then None
    else
      Some(s.(date := if Truthy(info.date) then NormalizeDate(info.date.value, today) else s.date,
              time := if Truthy(info.time) then Some(NormalizeTime(info.time.value)) else s.time))
  }

  /**
   * With a vehicle type known, up to three matching available vehicles are offered and a
   * confirmation is awaited; otherwise the customer is told there are none, or asked for a type.
   */
  function OfferVehicles(w: World, s: ConvState): (r: Turn)
    ensures r.world == w.(state := r.world.state)
    ensures r.world.state == s.(awaitingConfirmation := r.world.state.awaitingConfirmation)
    ensures r.reply.PresentVehicles? <==> Truthy(s.vehicleType) && OfKind(w.catalog, s.vehicleType) != []
    ensures r.reply.PresentVehicles? ==>
              && r.world.state.awaitingConfirmation
              && 1 <= |r.reply.options| <= 3
              && |r.reply.options| == Min(3, |OfKind(w.catalog, s.vehicleType)|)
              && r.reply.options == OfKind(w.catalog, s.vehicleType)[..|r.reply.options|]
    ensures !r.reply.PresentVehicles? ==> r.world.state == s && r.reply != Apology
    ensures !Truthy(s.vehicleType) ==> r.reply == AskVehicleType
    ensures Truthy(s.vehicleType) && OfKind(w.catalog, s.vehicleType) == [] ==>
              r.reply == NoVehiclesOfType(s.vehicleType.value)
  {
    if !Truthy(s.vehicleType) then Turn(w.(state := s), AskVehicleType)
    else
      var found := OfKind(w.catalog, s.vehicleType);
      if found == [] then Turn(w.(state := s), NoVehiclesOfType(s.vehicleType.value))
      else
        var options := Prefix(found, 3);
        assert 1 <= |options| <= 3 && options == found[..|options|];
        Turn(w.(state := s.(awaitingConfirmation := true)), PresentVehicles(s.vehicleType.value, options))
  }

  /**
   * `_handle_test_drive_booking`: the fields the classifier found overwrite the remembered
   * ones and the others are kept, then vehicles of the type are offered. Asking for the day
   * after 9999-12-31 raises, which the turn turns into an apology, after intent and type
   * have been recorded.
   */
  function HandleTestDrive(w: World, info: IntentInfo, today: Date): (r: Turn)
    requires ValidDate(today)
    ensures r.world.bookings == w.bookings && r.world.hours == w.hours && r.world.catalog == w.catalog
    ensures var s, s' := w.state, r.world.state;
      && s'.intent == Some(TestDriveBooking)
      && s'.vehicleType == (if Truthy(info.vehicleType) then info.vehicleType else s.vehicleType)
      && s'.selected == s.selected && s'.customerName == s.customerName && s'.customerPhone == s.customerPhone
    ensures r.reply == Apology <==>
              Truthy(info.date) && Lower(info.date.value) == "tomorrow" && today == Date(9999, 12, 31)
    ensures r.reply == Apology ==>
              r.world.state == w.state.(intent := r.world.state.intent, vehicleType := r.world.state.vehicleType)
    ensures r.reply != Apology ==>
              && r.world.state.date == (if Truthy(info.date) then NormalizeDate(info.date.value, today) else w.state.date)
              && r.world.state.time == (if Truthy(info.time) then Some(NormalizeTime(info.time.value)) else w.state.time)
    ensures r.reply.PresentVehicles? <==>
              r.reply != Apology && Truthy(r.world.state.vehicleType) && OfKind(w.catalog, r.world.state.vehicleType) != []
    ensures r.reply.PresentVehicles? ==>
              && r.world.state.awaitingConfirmation
              && 1 <= |r.reply.options| <= 3
              && |r.reply.options| == Min(3, |OfKind(w.catalog, r.world.state.vehicleType)|)
              && r.reply.options == OfKind(w.catalog, r.world.state.vehicleType)[..|r.reply.options|]
    ensures !r.reply.PresentVehicles? ==> r.world.state.awaitingConfirmation == w.state.awaitingConfirmation
    ensures r.reply != Apology && !Truthy(r.world.state.vehicleType) ==> r.reply == AskVehicleType
    ensures r.reply != Apology && Truthy(r.world.state.vehicleType) && OfKind(w.catalog, r.world.state.vehicleType) == [] ==>
              r.reply == NoVehiclesOfType(r.world.state.vehicleType.value)
  {
    var st := w.state.(intent := Some(TestDriveBooking),
                       vehicleType := if Truthy(info.vehicleType) then info.vehicleType else w.state.vehicleType);
    match AbsorbDateTime(st, info, today)
    case None => Turn(w.(state := st), Apology)
    case Some(st') => OfferVehicles(w, st')
  }

  /** `_handle_information_request`: details of the first vehicle whose model mentions the name. */
  function HandleInformation(w: World, info: IntentInfo): (r: Turn)
    ensures r.world == w
    ensures r.reply.VehicleDetails? <==>
              Truthy(info.model) && exists i :: 0 <= i < |w.catalog| && Catalog.ModelMentions(w.catalog[i], info.model.value)
    ensures r.reply.VehicleDetails? ==>
              exists k :: && 0 <= k < |w.catalog| && w.catalog[k] == r.reply.vehicle
                          && Catalog.ModelMentions(w.catalog[k], info.model.value)
                          && forall j :: 0 <= j < k ==> !Catalog.ModelMentions(w.catalog[j], info.model.value)
    ensures r.reply.VehicleDetails? ==> Some(r.reply.vehicle) == Catalog.ByModel(w.catalog, info.model.value)
    ensures !r.reply.VehicleDetails? ==> r.reply == InformationPrompt
  {
    if !Truthy(info.model) then Turn(w, InformationPrompt)
    else
      match Catalog.ByModel(w.catalog, info.model.value)
      case None => Turn(w, InformationPrompt)
      case Some(v) => Turn(w, VehicleDetails(v))
  }

  /**
   * `_handle_confirmation`: only while a confirmation is awaited, the first available vehicle
   * of the remembered type is selected, and once date and time are known a booking is
   * created for it. The customer's name and phone come from the state, where nothing ever
   * sets them. Success resets the conversation; failure keeps it, selection included.
   */
  function HandleConfirmation(w: World, today: Date, newId: string): (r: Turn)
    ensures r.world.hours == w.hours && r.world.catalog == w.catalog
    ensures !w.state.awaitingConfirmation ==> r == Turn(w, NothingToConfirm)
    ensures w.state.awaitingConfirmation && (!Truthy(w.state.vehicleType) || OfKind(w.catalog, w.state.vehicleType) == []) ==>
              r == Turn(w, ThanksForConfirming)
    ensures w.state.awaitingConfirmation && Truthy(w.state.vehicleType) && OfKind(w.catalog, w.state.vehicleType) != [] ==>
              var v := OfKind(w.catalog, w.state.vehicleType)[0];
              && (r.reply.BookingConfirmed? || r.reply.BookingFailed? || r.reply == AskDateTime)
              && (r.reply == AskDateTime <==> !Truthy(w.state.date) || !Truthy(w.state.time))
              && (!r.reply.BookingConfirmed? ==> r.world.bookings == w.bookings && r.world.state == w.state.(selected := Some(v)))
              && (r.reply.BookingConfirmed? ==> r.world.state == Initial)
    ensures r.reply.BookingConfirmed? ==>
              var v := OfKind(w.catalog, w.state.vehicleType)[0];
              && r.world.bookings == w.bookings + [r.reply.booking]
              && r.reply.booking == Scheduler.Booking(newId, Scheduler.RefOf(v), w.state.date.value, w.state.time.value,
                                                       Scheduler.Customer(w.state.customerName, w.state.customerPhone, None),
                                                       Scheduler.Confirmed)
              && Scheduler.Validate(w.hours, today, w.state.date.value, w.state.time.value).Ok?
              && !Scheduler.Taken(w.bookings, v.id, w.state.date.value, w.state.time.value)
    ensures r.reply.BookingFailed? ==>
              var v := OfKind(w.catalog, w.state.vehicleType)[0];
              (r.reply.error == Scheduler.SlotTaken <==> Scheduler.Validate(w.hours, today, w.state.date.value, w.state.time.value).Ok?)
              && (r.reply.error == Scheduler.SlotTaken ==> Scheduler.Taken(w.bookings, v.id, w.state.date.value, w.state.time.value))
              && (Scheduler.Validate(w.hours, today, w.state.date.value, w.state.time.value).Err? ==>
                    r.reply.error == Scheduler.InvalidTime(Scheduler.Validate(w.hours, today, w.state.date.value, w.state.time.value).error))
  {
    if !w.state.awaitingConfirmation then Turn(w, NothingToConfirm)
    else if !Truthy(w.state.vehicleType) then Turn(w, ThanksForConfirming)
    else
      var found := OfKind(w.catalog, w.state.vehicleType);
      if found == [] then Turn(w, ThanksForConfirming)
      else
        var st := w.state.(selected := Some(found[0]));
        if !Truthy(st.date) || !Truthy(st.time) then Turn(w.(state := st), AskDateTime)
        else
          var customer := Scheduler.Customer(st.customerName, st.customerPhone, None);
          var out := Scheduler.Create(w.bookings, w.hours, today, newId, found[0], st.date.value, st.time.value, customer);
          match out.result
          case Ok(b) => Turn(Reset(w.(bookings := out.bookings)), BookingConfirmed(b))
          case Err(e) => Turn(w.(state := st, bookings := out.bookings), BookingFailed(e))
  }

  /** `_handle_cancellation`: the conversation starts over; bookings are untouched. */
  function HandleCancellation(w: World): (r: Turn)
    ensures r.world.state == Initial
    ensures r.world.bookings == w.bookings && r.world.hours == w.hours && r.world.catalog == w.catalog
    ensures r.reply == Dismissed
  {
    Turn(Reset(w), Dismissed)
  }

  /** One turn for an already classified utterance: dispatch on the intent. */
  function Step(w: World, info: IntentInfo, today: Date, newId: string): (r: Turn)
    requires ValidDate(today)
    ensures r.world.hours == w.hours && r.world.catalog == w.catalog
    ensures || r.world.bookings == w.bookings
            || (&& r.reply.BookingConfirmed?
                && r.world.bookings == w.bookings + [r.reply.booking]
                && r.reply.booking.id == newId
                && r.reply.booking.status == Scheduler.Confirmed)
    ensures info.intent.TestDriveBooking? ==> r == HandleTestDrive(w, info, today)
    ensures info.intent.InformationRequest? ==> r == HandleInformation(w, info)
    ensures info.intent.Confirmation? ==> r == HandleConfirmation(w, today, newId)
    ensures info.intent.GeneralInquiry? ==> r == Turn(w, GeneralHelp)
    ensures info.intent.InformationRequest? || info.intent.GeneralInquiry? ==> r.world == w
    ensures info.intent.Cancellation? ==> r.world.state == Initial && r.world.bookings == w.bookings
  {
    match info.intent
    case TestDriveBooking => HandleTestDrive(w, info, today)
    case InformationRequest => HandleInformation(w, info)
    case Confirmation => HandleConfirmation(w, today, newId)
    case Cancellation => HandleCancellation(w)
    case GeneralInquiry => Turn(w, GeneralHelp)
  }

  /**
   * What became of the language model's answer in `_detect_intent`: a JSON object with an
   * `intent` field (`Parsed`), text that is not JSON at all (`NotJson`, the
   * `JSONDecodeError` that sends the utterance to the keyword fallback), or anything else
   * that raises before the dispatch (`Unusable`: the model call failing, JSON that is not
   * an object, an object without `intent`).
   */
  datatype Classification = Parsed(info: IntentInfo) | NotJson | Unusable

  /**
   * `process_message`: the parsed answer, or the keyword fallback for a reply that is not
   * JSON, then one turn; an unusable answer is caught by the handler around the whole turn,
   * which apologises and changes nothing.
   */
  function ProcessMessage(w: World, message: string, llm: Classification, today: Date, newId: string): (r: Turn)
    requires ValidDate(today)
    ensures r.world.hours == w.hours && r.world.catalog == w.catalog
    ensures r.world.bookings == w.bookings || r.reply.BookingConfirmed?
    ensures llm.Unusable? ==> r == Turn(w, Apology)
    ensures llm.Parsed? ==> r == Step(w, llm.info, today, newId)
    ensures llm.NotJson? ==> r == Step(w, Fallback(message), today, newId)
    ensures llm.NotJson? && Fallback(message).intent == Cancellation ==> r.world.state == Initial
  {
    match llm
    case Parsed(info) => Step(w, info, today, newId)
    case NotJson => Step(w, Fallback(message), today, newId)
    case Unusable => Turn(w, Apology)
  }

  /** No turn ever puts two live bookings on the same vehicle, date and time. */
  lemma StepKeepsNoDoubleBooking(w: World, info: IntentInfo, today: Date, newId: string)
    requires ValidDate(today)
    requires Scheduler.NoDoubleBooking(w.bookings)
    ensures Scheduler.NoDoubleBooking(Step(w, info, today, newId).world.bookings)
  {
    var r := Step(w, info, today, newId);
    if r.world.bookings != w.bookings {
      var v := OfKind(w.catalog, w.state.vehicleType)[0];
      var customer := Scheduler.Customer(w.state.customerName, w.state.customerPhone, None);
      Scheduler.CreateKeepsNoDoubleBooking(w.bookings, w.hours, today, newId, v,
                                           w.state.date.value, w.state.time.value, customer);
    }
  }

  /** With a fresh id for the new booking, no turn ever duplicates a booking id. */
  lemma StepKeepsUniqueIds(w: World, info: IntentInfo, today: Date, newId: string)
    requires ValidDate(today)
    requires Scheduler.UniqueIds(w.bookings)
    requires forall i :: 0 <= i < |w.bookings| ==> w.bookings[i].id != newId
    ensures Scheduler.UniqueIds(Step(w, info, today, newId).world.bookings)
  {
    var r := Step(w, info, today, newId);
    if r.world.bookings != w.bookings {
      var bs := r.world.bookings;
      assert bs == w.bookings + [r.reply.booking];
      forall i, j | 0 <= i < j < |bs| ensures bs[i].id != bs[j].id {
        if j == |bs| - 1 {
          assert bs[j].id == newId && bs[i] == w.bookings[i];
        }
      }
    }
  }

  /**
   * The two-turn booking flow: a request that names a vehicle type with available vehicles,
   * a date and a time, followed by a confirmation, books the first such vehicle for exactly
   * that normalised date and time, or reports why the scheduler refused.
   */
  lemma RequestThenConfirmBooks(w: World, request: IntentInfo, confirm: IntentInfo, today: Date, newId: string)
    requires ValidDate(today)
    requires request.intent == TestDriveBooking && confirm.intent == Confirmation
    requires Truthy(request.vehicleType) && OfKind(w.catalog, request.vehicleType) != []
    requires Truthy(request.date) && Truthy(request.time)
    requires Lower(request.date.value) != "tomorrow" || today != Date(9999, 12, 31)
    requires NormalizeDate(request.date.value, today).value != ""
    requires NormalizeTime(request.time.value) != ""
    ensures var t1 := Step(w, request, today, newId);
            var t2 := Step(t1.world, confirm, today, newId);
            var v := OfKind(w.catalog, request.vehicleType)[0];
            var date := NormalizeDate(request.date.value, today).value;
            var time := NormalizeTime(request.time.value);
            && t1.reply.PresentVehicles? && t1.world.bookings == w.bookings
            && (t2.reply.BookingConfirmed? || t2.reply.BookingFailed?)
            && (t2.reply.BookingConfirmed? <==>
                  Scheduler.Validate(w.hours, today, date, time).Ok? && !Scheduler.Taken(w.bookings, v.id, date, time))
            && (t2.reply.BookingConfirmed? ==>
                  && t2.reply.booking.vehicle == Scheduler.RefOf(v)
                  && t2.reply.booking.date == date && t2.reply.booking.time == time
                  && t2.world.state == Initial)
  {
    var t1 := Step(w, request, today, newId);
    assert t1.world.state.vehicleType == request.vehicleType;
    var t2 := Step(t1.world, confirm, today, newId);
    var v := OfKind(w.catalog, request.vehicleType)[0];
    var date := NormalizeDate(request.date.value, today).value;
    var time := NormalizeTime(request.time.value);
    if !t2.reply.BookingConfirmed? && Scheduler.Validate(w.hours, today, date, time).Ok? {
      assert t2.reply.error == Scheduler.SlotTaken;
    }
  }
}

=== FILE: intent.dfy ===
/**
 * Intent classification of one customer utterance. The language-model classifier is an
 * external collaborator whose answer the dialogue receives as an `IntentInfo`; the keyword
 * fallback used when that answer cannot be parsed is modelled here in full.
 */
module Intent {
  import opened Common
  import opened Text

  /** The intents the dialogue dispatches on; any other label is handled as a general inquiry. */
  datatype Tag = TestDriveBooking | InformationRequest | Confirmation | Cancellation | GeneralInquiry

  /** A classified utterance: the intent and the values mentioned in it, each possibly absent. */
  datatype IntentInfo = IntentInfo(
    intent: Tag,
    vehicleType: Option<string>,
    model: Option<string>,
    date: Option<string>,
    time: Option<string>)

  const BookingWords: seq<string> := ["book", "schedule", "test drive", "appointment"]

  const ConfirmWords: seq<string> := ["yes", "confirm", "sure", "okay", "proceed"]

  const CancelWords: seq<string> := ["cancel", "no thanks", "never mind"]

  const VehicleKinds: seq<string> := ["suv", "sedan", "truck", "coupe", "hatchback"]

  /** `any(word in text for word in words)`. */
  function MentionsAny(text: string, words: seq<string>): (r: bool)
    ensures r <==> exists i :: 0 <= i < |words| && Contains(text, words[i])
  {
    FirstIndex(words, (w: string) => Contains(text, w)).Some?
  }

  /** The first of `words`, in list order, that occurs in `text`. */
  function FirstMentioned(text: string, words: seq<string>): (r: Option<string>)
    ensures r.None? <==> forall i :: 0 <= i < |words| ==> !Contains(text, words[i])
    ensures r.Some? ==> exists i :: 0 <= i < |words| && r.value == words[i] && Contains(text, words[i])
                                    && forall j :: 0 <= j < i ==> !Contains(text, words[j])
  {
    match FirstIndex(words, (w: string) => Contains(text, w))
    case None => None
    case Some(i) => Some(words[i])
  }

  predicate IsMeridiem(t: string)
  {
    t == "am" || t == "pm" || t == "AM" || t == "PM"
  }

  /**
   * `\b(\d{1,2})\s*(am|pm|AM|PM)\b` tried at index `i`; yields the end of the match. A word
   * boundary is needed before the first digit and after the suffix; the digits and the
   * spaces are taken greedily, and giving some back can never help the match.
   */
  function TimeMatchAt(s: string, i: nat): (r: Option<nat>)
    ensures r.Some? ==> i < r.value <= |s|
  {
    if i >= |s| || !IsDigit(s[i]) || (i > 0 && IsWordChar(s[i - 1])) then None
    else
      var j := if i + 1 < |s| && IsDigit(s[i + 1]) then i + 2 else i + 1;
      var k := SkipSpaces(s, j);
      if k + 2 <= |s| && IsMeridiem(s[k..k + 2]) && (k + 2 == |s| || !IsWordChar(s[k + 2])) then Some(k + 2)
      else None
  }

  /** `re.search` from index `i`: the leftmost match at or after `i`. */
  function FindTimeFrom(s: string, i: nat): (r: Option<string>)
    ensures r.None? <==> forall k :: i <= k < |s| ==> TimeMatchAt(s, k).None?
    ensures r.Some? ==> exists k :: i <= k < |s| && TimeMatchAt(s, k).Some? && r.value == s[k..TimeMatchAt(s, k).value]
                                    && forall j :: i <= j < k ==> TimeMatchAt(s, j).None?
    decreases |s| - i
  {
    if i >= |s| then None
    else
      match TimeMatchAt(s, i)
      case Some(e) => Some(s[i..e])
      case None => FindTimeFrom(s, i + 1)
  }

  /** A stretch without digits holds no time expression: the search moves past it. */
  lemma {:induction false} FindTimeSkips(s: string, i: nat, k: nat)
    requires i <= k <= |s|
    requires forall j :: i <= j < k ==> !IsDigit(s[j])
    ensures FindTimeFrom(s, i) == FindTimeFrom(s, k)
    decreases k - i
  {
    if i < k {
      FindTimeStep(s, i);
      FindTimeSkips(s, i + 1, k);
    }
  }

  lemma FindTimeStep(s: string, i: nat)
    requires i < |s| && !IsDigit(s[i])
    ensures FindTimeFrom(s, i) == FindTimeFrom(s, i + 1)
  {
    assert TimeMatchAt(s, i).None?;
  }

  /** The leftmost time expression in the utterance, as written (`time_match.group(0)`). */
  function FindTime(s: string): (r: Option<string>)
    ensures r.None? <==> forall k :: 0 <= k < |s| ==> TimeMatchAt(s, k).None?
    ensures r.Some? ==> exists k :: 0 <= k < |s| && TimeMatchAt(s, k).Some? && r.value == s[k..TimeMatchAt(s, k).value]
                                    && forall j :: 0 <= j < k ==> TimeMatchAt(s, j).None?
  {
    FindTimeFrom(s, 0)
  }

  /** Later keyword tests override earlier ones: cancel words over confirm words over booking words. */
  function Classify(m: string, cancel: seq<string>, confirm: seq<string>, book: seq<string>): (r: Tag)
    ensures r == Cancellation <==> MentionsAny(m, cancel)
    ensures r == Confirmation <==> !MentionsAny(m, cancel) && MentionsAny(m, confirm)
    ensures r == TestDriveBooking <==> !MentionsAny(m, cancel) && !MentionsAny(m, confirm) && MentionsAny(m, book)
    ensures r == GeneralInquiry <==> !MentionsAny(m, cancel) && !MentionsAny(m, confirm) && !MentionsAny(m, book)
  {
    var intent := GeneralInquiry;
    var intent := if MentionsAny(m, book) then TestDriveBooking else intent;
    var intent := if MentionsAny(m, confirm) then Confirmation else intent;
    if MentionsAny(m, cancel) then Cancellation else intent
  }

  /** The first of `kinds` mentioned, upper-cased. */
  function FirstKind(m: string, kinds: seq<string>): (r: Option<string>)
    ensures r.None? <==> forall i :: 0 <= i < |kinds| ==> !Contains(m, kinds[i])
    ensures r.Some? ==> exists i :: && 0 <= i < |kinds| && Contains(m, kinds[i])
                                    && r.value == Upper(kinds[i])
                                    && forall j :: 0 <= j < i ==> !Contains(m, kinds[j])
  {
    match FirstMentioned(m, kinds)
    case None => None
    case Some(w) => Some(Upper(w))
  }

  /** `tomorrow` takes precedence over `today`. */
  function DateWord(m: string, tomorrow: string, today: string): (r: Option<string>)
    ensures Contains(m, tomorrow) ==> r == Some(tomorrow)
    ensures !Contains(m, tomorrow) && Contains(m, today) ==> r == Some(today)
    ensures !Contains(m, tomorrow) && !Contains(m, today) ==> r == None
  {
    if Contains(m, tomorrow) then Some(tomorrow)
    else if Contains(m, today) then Some(today)
    else None
  }

  /**
   * `_fallback_intent_detection`: keyword tests on the lower-cased utterance, where a later
   * test overrides an earlier one (cancellation over confirmation over booking), then the
   * first vehicle type mentioned, `tomorrow` before `today`, and the first time expression.
   * Total: every utterance gets an answer.
   */
  function Fallback(message: string): (r: IntentInfo)
    ensures var m := Lower(message);
      && (r.intent == Cancellation <==> MentionsAny(m, CancelWords))
      && (r.intent == Confirmation <==> !MentionsAny(m, CancelWords) && MentionsAny(m, ConfirmWords))
      && (r.intent == TestDriveBooking <==>
            !MentionsAny(m, CancelWords) && !MentionsAny(m, ConfirmWords) && MentionsAny(m, BookingWords))
      && (r.intent == GeneralInquiry <==>
            !MentionsAny(m, CancelWords) && !MentionsAny(m, ConfirmWords) && !MentionsAny(m, BookingWords))
      && r.model == None
      && (r.vehicleType.None? <==> forall i :: 0 <= i < |VehicleKinds| ==> !Contains(m, VehicleKinds[i]))
      && (r.vehicleType.Some? ==> exists i :: && 0 <= i < |VehicleKinds| && Contains(m, VehicleKinds[i])
                                             && r.vehicleType.value == Upper(VehicleKinds[i])
                                             && forall j :: 0 <= j < i ==> !Contains(m, VehicleKinds[j]))
      && (Contains(m, "tomorrow") ==> r.date == Some("tomorrow"))
      && (!Contains(m, "tomorrow") && Contains(m, "today") ==> r.date == Some("today"))
      && (!Contains(m, "tomorrow") && !Contains(m, "today") ==> r.date == None)
      && r.time == FindTime(message)
  {
    var m := Lower(message);
    IntentInfo(Classify(m, CancelWords, ConfirmWords, BookingWords), FirstKind(m, VehicleKinds), None,
               DateWord(m, "tomorrow", "today"), FindTime(message))
  }
}

=== FILE: normalize.dfy ===
/**
 * Normalisation of the date and time phrases a customer uses into the canonical
 * `YYYY-MM-DD` and `HH:MM` text the booking store expects.
 */
module Normalize {
  import opened Common
  import opened Text
  import opened Calendar
  import Intent

  /** A 12-hour clock reading as written: hour, minute (0 when omitted) and the half of the day. */
  datatype ClockPhrase = ClockPhrase(hour: nat, minute: nat, pm: bool)

  /**
   * `re.match(r'(\d{1,2})(?::(\d{2}))?\s*(AM|PM)', s)`: anchored at the start only, so text
   * after the suffix is ignored. Digits, the optional minute group and the spaces are taken
   * greedily; giving any of them back can never let the suffix match.
   */
  function MatchClock(s: string): (r: Option<ClockPhrase>)
    ensures r.Some? ==> r.value.hour < 100 && r.value.minute < 100
  {
    if |s| == 0 || !IsDigit(s[0]) then None
    else
      var j := if |s| > 1 && IsDigit(s[1]) then 2 else 1;
      var hour := if j == 2 then Num2(s[0], s[1]) else DigitValue(s[0]);
      var hasMinute := j + 2 < |s| && s[j] == ':' && IsDigit(s[j + 1]) && IsDigit(s[j + 2]);
      var minute := if hasMinute then Num2(s[j + 1], s[j + 2]) else 0;
      var k := SkipSpaces(s, if hasMinute then j + 3 else j);
      if k + 2 <= |s| && (s[k..k + 2] == "AM" || s[k..k + 2] == "PM") then
        Some(ClockPhrase(hour, minute, s[k..k + 2] == "PM"))
      else None
  }

  /**
   * What the reader reads, for every text it accepts by construction: one or two hour digits,
   * an optional `:MM`, any run of whitespace, the suffix `AM` or `PM`, and anything after it.
   */
  lemma ReadClock(d: string, mm: string, sp: string, suffix: string, rest: string)
    requires ClockLayout(d, mm, sp, suffix)
    ensures MatchClock(d + mm + sp + suffix + rest)
            == Some(ClockPhrase(Numeral(d), if mm == "" then 0 else Num2(mm[1], mm[2]), suffix == "PM"))
  {
    var s := d + mm + sp + suffix + rest;
    var j, a := |d|, |d| + |mm|;
    var k := a + |sp|;
    assert forall n :: 0 <= n < j ==> s[n] == d[n];
    assert forall n :: 0 <= n < |mm| ==> s[j + n] == mm[n];
    assert forall n :: 0 <= n < |sp| ==> s[a + n] == sp[n];
    assert s[k] == suffix[0] && s[k + 1] == suffix[1];
    assert s[k..k + 2] == suffix;
    ClockAt(s, j, a, k, if mm == "" then 0 else Num2(mm[1], mm[2]), suffix == "PM");
  }

  /** One or two digits, an optional `:MM`, a run of whitespace and the suffix `AM` or `PM`. */
  predicate ClockLayout(d: string, mm: string, sp: string, suffix: string)
  {
    && 1 <= |d| <= 2 && AllDigits(d)
    && (mm == "" || (|mm| == 3 && mm[0] == ':' && IsDigit(mm[1]) && IsDigit(mm[2])))
    && (forall n :: 0 <= n < |sp| ==> IsSpace(sp[n]))
    && (suffix == "AM" || suffix == "PM")
  }

  /** Conversely, every text the reader accepts starts with that layout, so `ReadClock` covers all of them. */
  lemma ClockHasLayout(s: string)
    requires MatchClock(s).Some?
    ensures exists d, mm, sp, suffix :: ClockLayout(d, mm, sp, suffix) && d + mm + sp + suffix <= s
  {
    var j := if |s| > 1 && IsDigit(s[1]) then 2 else 1;
    var hasMinute := j + 2 < |s| && s[j] == ':' && IsDigit(s[j + 1]) && IsDigit(s[j + 2]);
    var a := if hasMinute then j + 3 else j;
    var k := SkipSpaces(s, a);
    LayoutAt(s, j, a, k);
  }

  /** The layout read off the indices where the digits, the minute group and the spaces end. */
  lemma LayoutAt(s: string, j: nat, a: nat, k: nat)
    requires 1 <= j <= 2 && j <= a <= k && k + 2 <= |s|
    requires forall n :: 0 <= n < j ==> IsDigit(s[n])
    requires a == j || (a == j + 3 && s[j] == ':' && IsDigit(s[j + 1]) && IsDigit(s[j + 2]))
    requires forall n :: a <= n < k ==> IsSpace(s[n])
    requires s[k..k + 2] == "AM" || s[k..k + 2] == "PM"
    ensures exists d, mm, sp, suffix :: ClockLayout(d, mm, sp, suffix) && d + mm + sp + suffix <= s
  {
    var d, mm, sp, suffix := s[..j], s[j..a], s[a..k], s[k..k + 2];
    assert AllDigits(d) by {
      assert forall n :: 0 <= n < j ==> d[n] == s[n];
    }
    assert forall n :: 0 <= n < |sp| ==> IsSpace(sp[n]) by {
      assert forall n :: 0 <= n < |sp| ==> sp[n] == s[a + n];
    }
    assert ClockLayout(d, mm, sp, suffix);
    SlicesJoin(s, j, a, k, k + 2);
  }

  /** `MatchClock` on a text laid out as digits up to `j`, an optional minute group up to `a`,
      whitespace up to `k` and a suffix at `k`. */
  lemma ClockAt(s: string, j: nat, a: nat, k: nat, minute: nat, pm: bool)
    requires 1 <= j <= 2 && (a == j || a == j + 3) && a <= k && k + 2 <= |s|
    requires forall n :: 0 <= n < j ==> IsDigit(s[n])
    requires !IsDigit(s[j])
    requires a == j ==> s[j] != ':' && minute == 0
    requires a == j + 3 ==> s[j] == ':' && IsDigit(s[j + 1]) && IsDigit(s[j + 2]) && minute == Num2(s[j + 1], s[j + 2])
    requires forall n :: a <= n < k ==> IsSpace(s[n])
    requires s[k..k + 2] == if pm then "PM" else "AM"
    ensures MatchClock(s) == Some(ClockPhrase(if j == 2 then Num2(s[0], s[1]) else DigitValue(s[0]), minute, pm))
  {
    assert !IsSpace(s[k]) by {
      assert s[k] == s[k..k + 2][0];
    }
    SkipSpacesTo(s, a, k);
  }

  /** The 24-hour hour of a 12-hour reading: 12 AM is midnight, 12 PM is noon. */
  function To24(hour: nat, pm: bool): nat
  {
    if pm && hour != 12 then hour + 12
    else if !pm && hour == 12 then 0
    else hour
  }

  /** Every hour of the day has exactly one 12-hour reading. */
  lemma To24Bijective(h: nat)
    requires h < 24
    ensures exists hour, pm :: 1 <= hour <= 12 && To24(hour, pm) == h
    ensures forall hour, pm, hour', pm' ::
              1 <= hour <= 12 && 1 <= hour' <= 12 && To24(hour, pm) == h && To24(hour', pm') == h
              ==> hour == hour' && pm == pm'
  {
    if h == 0 {
      assert To24(12, false) == h;
    } else if h < 12 {
      assert To24(h, false) == h;
    } else if h == 12 {
      assert To24(12, true) == h;
    } else {
      assert To24(h - 12, true) == h;
    }
  }

  /** `f"{hour:02d}:{minute:02d}"` of the 24-hour reading; it reads back exactly when it is a real time. */
  function Render(p: ClockPhrase): (r: string)
    requires p.minute < 100
    ensures var h := To24(p.hour, p.pm);
            ParseTime(r) == if h <= 23 && p.minute <= 59 then Some(h * 60 + p.minute) else None
    ensures var h := To24(p.hour, p.pm);
            h <= 23 && p.minute <= 59 ==> r == FormatTime(h * 60 + p.minute)
  {
    var h := To24(p.hour, p.pm);
    ReadBack(h, p.minute);
    assert p.minute <= 59 ==> (h * 60 + p.minute) / 60 == h && (h * 60 + p.minute) % 60 == p.minute;
    Pad2(To24(p.hour, p.pm)) + ":" + Pad2(p.minute)
  }

  /** The canonical rendering of a reading, or the (upper-cased, stripped) text unchanged. */
  function NormalizeTime(s: string): (r: string)
    ensures MatchClock(Strip(Upper(s))).None? ==> r == Strip(Upper(s))
    ensures MatchClock(Strip(Upper(s))).Some? ==>
              var p := MatchClock(Strip(Upper(s))).value;
              var h := To24(p.hour, p.pm);
              && ParseTime(r) == (if h <= 23 && p.minute <= 59 then Some(h * 60 + p.minute) else None)
              && (h <= 23 && p.minute <= 59 ==> r == FormatTime(h * 60 + p.minute))
  {
    var t := Strip(Upper(s));
    var m := MatchClock(t);
    if m.None? then t else Render(m.value)
  }

  /** `HH:MM` built from any hour and minute below 100 reads back exactly when it is a real time. */
  lemma ReadBack(h: nat, m: nat)
    requires m < 100
    ensures ParseTime(Pad2(h) + ":" + Pad2(m)) == if h <= 23 && m <= 59 then Some(h * 60 + m) else None
  {
    var s := Pad2(h) + ":" + Pad2(m);
    if h < 100 {
      assert s[..2] == Pad2(h) && s[2] == ':' && s[3..] == Pad2(m);
    } else {
      assert |Pad2(h)| >= 3 && s[..|Pad2(h)|] == Pad2(h);
      assert IsDigit(s[1]) && IsDigit(s[2]);
    }
  }

  /**
   * A time expression the keyword fallback picks out of an utterance (one or two digits,
   * optional spaces, am or pm) is always a reading `MatchClock` accepts, on the hour: the
   * hour its digits spell, in the afternoon exactly when the suffix is pm or PM.
   */
  lemma TimeTokenIsClock(s: string, i: nat)
    requires Intent.TimeMatchAt(s, i).Some?
    ensures var t := s[i..Intent.TimeMatchAt(s, i).value];
            MatchClock(Strip(Upper(t))).Some? && MatchClock(Strip(Upper(t))).value.minute == 0
    ensures var e := Intent.TimeMatchAt(s, i).value;
            && i + 2 < e
            && MatchClock(Strip(Upper(s[i..e])))
               == Some(ClockPhrase(if IsDigit(s[i + 1]) then Num2(s[i], s[i + 1]) else DigitValue(s[i]),
                                   0, s[e - 2] == 'p' || s[e - 2] == 'P'))
  {
    var e := Intent.TimeMatchAt(s, i).value;
    var j := if i + 1 < |s| && IsDigit(s[i + 1]) then i + 2 else i + 1;
    var k := SkipSpaces(s, j);
    assert k + 2 == e && Intent.IsMeridiem(s[k..k + 2]);
    var u := Upper(s[i..e]);
    TokenReading(s, u, i, j, k);
  }

  /**
   * From utterance to stored text: the time token the fallback extracts normalises to the
   * `HH:MM` of its 24-hour reading, or, for an hour like 13pm, to text the time parser rejects.
   */
  lemma FallbackTimeNormalized(s: string, i: nat)
    requires Intent.TimeMatchAt(s, i).Some?
    ensures var e := Intent.TimeMatchAt(s, i).value;
            && i + 2 < e
            && var h := To24(if IsDigit(s[i + 1]) then Num2(s[i], s[i + 1]) else DigitValue(s[i]),
                             s[e - 2] == 'p' || s[e - 2] == 'P');
               && (h <= 23 ==> NormalizeTime(s[i..e]) == FormatTime(h * 60))
               && (h > 23 ==> ParseTime(NormalizeTime(s[i..e])) == None)
  {
    TimeTokenIsClock(s, i);
  }

  /** The window facts, then the reading, for the upper-cased token `u` of `s[i..k + 2]`. */
  lemma TokenReading(s: string, u: string, i: nat, j: nat, k: nat)
    requires i < j <= k && k + 2 <= |s| && u == Upper(s[i..k + 2])
    requires IsDigit(s[i]) && j == (if i + 1 < |s| && IsDigit(s[i + 1]) then i + 2 else i + 1)
    requires SkipSpaces(s, j) == k && Intent.IsMeridiem(s[k..k + 2])
    ensures Strip(u) == u
    ensures MatchClock(u) == Some(ClockPhrase(if IsDigit(s[i + 1]) then Num2(s[i], s[i + 1]) else DigitValue(s[i]),
                                              0, s[k] == 'p' || s[k] == 'P'))
  {
    assert forall n :: 0 <= n < |u| ==> u[n] == UpperChar(s[i + n]);
    assert TokenWindow(s, u, i, j, k);
    UpperTokenEnds(s, u, i, j, k);
    StripKeeps(u);
    ClockOfToken(s, u, i, j, k);
  }

  /** The upper-cased token reads as the hour of the original digits, pm exactly on a p or P suffix. */
  lemma ClockOfToken(s: string, u: string, i: nat, j: nat, k: nat)
    requires TokenWindow(s, u, i, j, k)
    ensures MatchClock(u) == Some(ClockPhrase(if IsDigit(s[i + 1]) then Num2(s[i], s[i + 1]) else DigitValue(s[i]),
                                              0, s[k] == 'p' || s[k] == 'P'))
  {
    ClockOfUpper(s, u, i, j, k);
    assert u[0] == s[i];
    assert j == i + 2 ==> u[1] == s[i + 1];
    UpperMeridiem(s[k], s[k + 1]);
    assert u[k - i] == UpperChar(s[k]);
  }

  /**
   * `u` is the upper-cased text of a fallback time token `s[i..k + 2]`: digits from `i` to `j`,
   * spaces from `j` to `k`, and a two-letter suffix at `k`.
   */
  predicate TokenWindow(s: string, u: string, i: nat, j: nat, k: nat)
  {
    && i < j <= k && k + 2 <= |s| && |u| == k + 2 - i
    && (forall n :: 0 <= n < |u| ==> u[n] == UpperChar(s[i + n]))
    && IsDigit(s[i]) && j == (if IsDigit(s[i + 1]) then i + 2 else i + 1)
    && SkipSpaces(s, j) == k && Intent.IsMeridiem(s[k..k + 2])
  }

  /** The upper-cased token reads as a clock phrase on the hour. */
  lemma ClockOfUpper(s: string, u: string, i: nat, j: nat, k: nat)
    requires TokenWindow(s, u, i, j, k)
    ensures MatchClock(u) == Some(ClockPhrase(if j - i == 2 then Num2(u[0], u[1]) else DigitValue(u[0]), 0, u[k - i] == 'P'))
  {
    UpperTokenEnds(s, u, i, j, k);
    UpperTokenGap(s, u, i, j, k);
    SkipSpacesShift(s, u, i, j, k);
    var pm := u[k - i..k - i + 2] == "PM";
    assert pm <==> u[k - i] == 'P';
    ClockAt(u, j - i, j - i, k - i, 0, pm);
  }

  /** Upper-casing keeps the leading digits and turns the suffix into `AM` or `PM`. */
  lemma UpperTokenEnds(s: string, u: string, i: nat, j: nat, k: nat)
    requires TokenWindow(s, u, i, j, k)
    ensures IsDigit(u[0]) && j - i == if IsDigit(u[1]) then 2 else 1
    ensures u[k - i..k - i + 2] == "AM" || u[k - i..k - i + 2] == "PM"
    ensures !IsSpace(s[k]) && !IsSpace(u[0]) && u[|u| - 1] == 'M'
  {
    assert u[0] == s[i] && u[1] == UpperChar(s[i + 1]);
    UpperMeridiem(s[k], s[k + 1]);
    assert u[k - i..k - i + 2] == [UpperChar(s[k]), UpperChar(s[k + 1])];
  }

  /** What follows the digits is a space or the suffix, never the `:` of a minute group. */
  lemma UpperTokenGap(s: string, u: string, i: nat, j: nat, k: nat)
    requires TokenWindow(s, u, i, j, k)
    ensures u[j - i] != ':' && !IsDigit(u[j - i])
  {
    assert u[j - i] == UpperChar(s[j]);
    if j < k {
      assert IsSpace(s[j]);
    } else {
      assert s[j] == s[k..k + 2][0];
    }
  }

  lemma UpperMeridiem(a: char, b: char)
    requires Intent.IsMeridiem([a, b])
    ensures [UpperChar(a), UpperChar(b)] == "AM" || [UpperChar(a), UpperChar(b)] == "PM"
    ensures !IsSpace(a) && UpperChar(b) == 'M'
  {
  }

  /** Skipping spaces in a window of upper-cased text lands where it lands in the original. */
  lemma {:induction false} SkipSpacesShift(s: string, u: string, i: nat, j: nat, k: nat)
    requires i <= j <= k && k + 2 <= |s| && |u| == k + 2 - i
    requires forall n :: 0 <= n < |u| ==> u[n] == UpperChar(s[i + n])
    requires !IsSpace(s[k])
    requires SkipSpaces(s, j) == k
    ensures SkipSpaces(u, j - i) == k - i
    decreases k - j
  {
    if j < k {
      assert IsSpace(s[j]) && u[j - i] == s[j];
      SkipSpacesShift(s, u, i, j + 1, k);
    } else {
      assert u[j - i] == UpperChar(s[k]);
    }
  }

  /**
   * `today` and `tomorrow` (in any letter case) become the canonical date of today and of the
   * next day; anything else is kept as given. `None` is the `OverflowError` of asking for the
   * day after 9999-12-31.
   */
  function NormalizeDate(s: string, today: Date): (r: Option<string>)
    requires ValidDate(today)
    ensures Lower(s) == "today" ==> r.Some? && ParseDate(r.value) == Some(today)
    ensures Lower(s) == "tomorrow" ==> (r.None? <==> today == Date(9999, 12, 31))
    ensures Lower(s) == "tomorrow" && r.Some? ==> ParseDate(r.value) == NextDay(today)
    ensures Lower(s) != "today" && Lower(s) != "tomorrow" ==> r == Some(s)
    ensures Lower(s) == "today" ==> r == Some(FormatDate(today))
    ensures Lower(s) == "tomorrow" && NextDay(today).Some? ==> r == Some(FormatDate(NextDay(today).value))
  {
    if Lower(s) == "today" then
      ParseFormatDate(today);
      Some(FormatDate(today))
    else if Lower(s) == "tomorrow" then
      match NextDay(today)
      case None => None
      case Some(d) =>
        ParseFormatDate(d);
        Some(FormatDate(d))
    else Some(s)
  }
}

=== FILE: scenarios.dfy ===
/**
 * Worked examples on concrete data: the default slot grid, the validation outcomes around
 * the business hours, the phrases the normalisers turn into canonical text, and how the
 * keyword fallback reads a test-drive request.
 */
module Scenarios {
  import opened Common
  import opened Text
  import opened Calendar
  import Catalog
  import Scheduler
  import opened Intent
  import opened Normalize

  const Today := Date(2025, 3, 10)

  /** `HH:MM` text spelled out digit by digit. */
  lemma FormatTimeDigits(t: TimeOfDay, a: char, b: char, c: char, d: char)
    requires a == DigitChar(t / 60 / 10) && b == DigitChar(t / 60 % 10)
    requires c == DigitChar(t % 60 / 10) && d == DigitChar(t % 60 % 10)
    ensures FormatTime(t) == [a, b, ':', c, d]
  {
  }

  /** The rendering of a reading, spelled out digit by digit. */
  lemma RenderDigits(p: ClockPhrase, a: char, b: char, c: char, d: char)
    requires p.minute < 100 && To24(p.hour, p.pm) < 100
    requires a == DigitChar(To24(p.hour, p.pm) / 10) && b == DigitChar(To24(p.hour, p.pm) % 10)
    requires c == DigitChar(p.minute / 10) && d == DigitChar(p.minute % 10)
    ensures Render(p) == [a, b, ':', c, d]
  {
  }

  /** The default day runs from 09:00 to 17:30 in eighteen half-hour slots. */
  lemma DefaultGrid()
    ensures var g := Scheduler.SlotGrid(Scheduler.DefaultHours);
            |g| == 18 && g[0] == "09:00" && g[1] == "09:30" && g[17] == "17:30"
  {
    FormatTimeDigits(540, '0', '9', '0', '0');
    FormatTimeDigits(570, '0', '9', '3', '0');
    FormatTimeDigits(1050, '1', '7', '3', '0');
    var g := Scheduler.SlotGrid(Scheduler.DefaultHours);
    assert |g| == 18;
    assert g[0] == FormatTime(540);
    assert g[1] == FormatTime(570);
    assert g[17] == FormatTime(1050);
  }

  /** Yesterday is refused as past. */
  lemma YesterdayRefused()
    ensures Scheduler.Validate(Scheduler.DefaultHours, Today, "2025-03-09", "10:00") == Err(Scheduler.PastDate)
  {
  }

  /** Half an hour before opening is out of hours. */
  lemma BeforeOpeningRefused()
    ensures Scheduler.Validate(Scheduler.DefaultHours, Today, "2025-03-10", "08:30") == Err(Scheduler.OutOfHours)
  {
  }

  /** The opening and the closing minute are both accepted. */
  lemma OpeningAndClosingAccepted()
    ensures Scheduler.Validate(Scheduler.DefaultHours, Today, "2025-03-10", "09:00").Ok?
    ensures Scheduler.Validate(Scheduler.DefaultHours, Today, "2025-03-10", "18:00").Ok?
  {
  }

  /** 30 February does not exist. */
  lemma NoThirtiethOfFebruary()
    ensures Scheduler.Validate(Scheduler.DefaultHours, Today, "2025-02-30", "10:00") == Err(Scheduler.MalformedInput)
  {
  }

  const Rav4 := Catalog.Vehicle("v001", "Toyota", "RAV4", 2024, "SUV", 32000, Some(true))

  const Civic := Catalog.Vehicle("v002", "Honda", "Civic", 2024, "Sedan", 25000, Some(true))

  const Walkin := Scheduler.Customer(None, None, None)

  /** A slot once booked refuses the same vehicle again, but not another vehicle. */
  lemma DoubleBookingRefused()
    ensures var first := Scheduler.Create([], Scheduler.DefaultHours, Today, "b1", Rav4, "2025-03-11", "14:00", Walkin);
            && first.result.Ok?
            && Scheduler.Create(first.bookings, Scheduler.DefaultHours, Today, "b2", Rav4, "2025-03-11", "14:00", Walkin)
               == Scheduler.Outcome(first.bookings, Err(Scheduler.SlotTaken))
            && Scheduler.Create(first.bookings, Scheduler.DefaultHours, Today, "b2", Civic, "2025-03-11", "14:00", Walkin).result.Ok?
  {
    assert Scheduler.Validate(Scheduler.DefaultHours, Today, "2025-03-11", "14:00").Ok?;
    var first := Scheduler.Create([], Scheduler.DefaultHours, Today, "b1", Rav4, "2025-03-11", "14:00", Walkin);
    assert Scheduler.Occupies(first.bookings[0], "v001", "2025-03-11", "14:00");
    assert !Scheduler.Taken(first.bookings, "v002", "2025-03-11", "14:00");
  }

  /** A phrase normalises to the rendering of its reading, once stripping and reading are known. */
  lemma NormalizeVia(s: string, t: string, p: ClockPhrase)
    requires Strip(Upper(s)) == t && MatchClock(t) == Some(p)
    ensures NormalizeTime(s) == Render(p)
  {
  }

  /** "2pm" is 14:00. */
  lemma TwoPm()
    ensures NormalizeTime("2pm") == "14:00"
  {
    RenderDigits(ClockPhrase(2, 0, true), '1', '4', '0', '0');
    TwoPmText();
    TwoPmReading();
    NormalizeVia("2pm", "2PM", ClockPhrase(2, 0, true));
  }

  lemma TwoPmText()
    ensures Strip(Upper("2pm")) == "2PM"
  {
    assert Upper("2pm") == "2PM";
    StripKeeps("2PM");
  }

  lemma TwoPmReading()
    ensures MatchClock("2PM") == Some(ClockPhrase(2, 0, true))
  {
    assert !IsSpace('P');
    assert SkipSpaces("2PM", 1) == 1;
    assert "2PM"[1..3] == "PM";
  }

  /** Surrounding spaces and a lower-case suffix do not matter: " 2:30 pm " is 14:30. */
  lemma HalfPastTwo()
    ensures NormalizeTime(" 2:30 pm ") == "14:30"
  {
    RenderDigits(ClockPhrase(2, 30, true), '1', '4', '3', '0');
    HalfPastTwoText();
    HalfPastTwoReading();
    NormalizeVia(" 2:30 pm ", "2:30 PM", ClockPhrase(2, 30, true));
  }

  lemma HalfPastTwoText()
    ensures Strip(Upper(" 2:30 pm ")) == "2:30 PM"
  {
    var u := Upper(" 2:30 pm ");
    assert u[0] == ' ' && u[1] == '2' && u[2] == ':' && u[3] == '3' && u[4] == '0';
    assert u[5] == ' ' && u[6] == 'P' && u[7] == 'M' && u[8] == ' ';
    StripOneEach(u);
    assert u[1..8] == "2:30 PM";
  }

  lemma HalfPastTwoReading()
    ensures MatchClock("2:30 PM") == Some(ClockPhrase(2, 30, true))
  {
    assert !IsSpace('P') && IsSpace(' ');
    assert SkipSpaces("2:30 PM", 5) == 5;
    assert SkipSpaces("2:30 PM", 4) == 5;
    assert "2:30 PM"[5..7] == "PM";
  }

  /** 12 AM is midnight. */
  lemma Midnight()
    ensures NormalizeTime("12 AM") == "00:00"
  {
    RenderDigits(ClockPhrase(12, 0, false), '0', '0', '0', '0');
    MidnightText();
    MidnightReading();
    NormalizeVia("12 AM", "12 AM", ClockPhrase(12, 0, false));
  }

  lemma MidnightText()
    ensures Strip(Upper("12 AM")) == "12 AM"
  {
    assert Upper("12 AM") == "12 AM";
    StripKeeps("12 AM");
  }

  lemma MidnightReading()
    ensures MatchClock("12 AM") == Some(ClockPhrase(12, 0, false))
  {
    assert !IsSpace('A') && IsSpace(' ');
    assert SkipSpaces("12 AM", 3) == 3;
    assert SkipSpaces("12 AM", 2) == 3;
    assert "12 AM"[3..5] == "AM";
  }

  /** 12 PM is noon. */
  lemma Noon()
    ensures NormalizeTime("12pm") == "12:00"
  {
    RenderDigits(ClockPhrase(12, 0, true), '1', '2', '0', '0');
    NoonText();
    NoonReading();
    NormalizeVia("12pm", "12PM", ClockPhrase(12, 0, true));
  }

  lemma NoonText()
    ensures Strip(Upper("12pm")) == "12PM"
  {
    assert Upper("12pm") == "12PM";
    StripKeeps("12PM");
  }

  lemma NoonReading()
    ensures MatchClock("12PM") == Some(ClockPhrase(12, 0, true))
  {
    assert !IsSpace('P');
    assert SkipSpaces("12PM", 2) == 2;
    assert "12PM"[2..4] == "PM";
  }

  /** The hour is not range-checked: "13pm" becomes 25:00, which validation later rejects. */
  lemma ThirteenPm()
    ensures NormalizeTime("13pm") == "25:00" && ParseTime("25:00") == None
  {
    RenderDigits(ClockPhrase(13, 0, true), '2', '5', '0', '0');
    ThirteenPmText();
    ThirteenPmReading();
    NormalizeVia("13pm", "13PM", ClockPhrase(13, 0, true));
  }

  lemma ThirteenPmText()
    ensures Strip(Upper("13pm")) == "13PM"
  {
    assert Upper("13pm") == "13PM";
    StripKeeps("13PM");
  }

  lemma ThirteenPmReading()
    ensures MatchClock("13PM") == Some(ClockPhrase(13, 0, true))
  {
    assert !IsSpace('P');
    assert SkipSpaces("13PM", 2) == 2;
    assert "13PM"[2..4] == "PM";
  }

  /** Text already in 24-hour form has no suffix and is kept. */
  lemma CanonicalKept()
    ensures NormalizeTime("14:00") == "14:00"
  {
    assert Strip(Upper("14:00")) == "14:00" by {
      assert Upper("14:00") == "14:00";
      StripKeeps("14:00");
    }
    assert MatchClock("14:00") == None by {
      assert SkipSpaces("14:00", 5) == 5;
    }
  }

  /** `today` and `tomorrow`, in any case, become the calendar date. */
  lemma DateExamples()
    ensures NormalizeDate("Tomorrow", Today) == Some("2025-03-11")
    ensures NormalizeDate("today", Today) == Some("2025-03-10")
  {
    assert Lower("Tomorrow") == "tomorrow";
    assert Lower("today") == "today";
    assert FormatDate(Today) == "2025-03-10";
    assert NextDay(Today) == Some(Date(2025, 3, 11));
    assert FormatDate(Date(2025, 3, 11)) == "2025-03-11";
  }

  /** Other text is kept as given, and there is no day after 9999-12-31. */
  lemma DateKeptOrOverflow()
    ensures NormalizeDate("next friday", Today) == Some("next friday")
    ensures NormalizeDate("tomorrow", Date(9999, 12, 31)) == None
  {
    assert Lower("tomorrow") == "tomorrow";
  }

  const Request := "book a suv tomorrow at 2pm"

  /** The request books, names an SUV and names tomorrow. */
  lemma RequestMentions()
    ensures Contains(Request, "book") && Contains(Request, "suv") && Contains(Request, "tomorrow")
  {
    assert OccursAt(Request, "book", 0) && OccursAt(Request, "suv", 7) && OccursAt(Request, "tomorrow", 11);
    ContainsEach(Request, "book", 0, "suv", 7, "tomorrow", 11);
  }

  lemma ContainsEach(m: string, a: string, i: int, b: string, j: int, c: string, k: int)
    requires OccursAt(m, a, i) && OccursAt(m, b, j) && OccursAt(m, c, k)
    ensures Contains(m, a) && Contains(m, b) && Contains(m, c)
  {
    ContainsAt(m, a, i);
    ContainsAt(m, b, j);
    ContainsAt(m, c, k);
  }

  /** Letters the request does not contain. */
  lemma RequestLacks()
    ensures 'c' !in Request && 'n' !in Request && 'y' !in Request && 'e' !in Request
  {
  }

  lemma RequestLacksCancelWords()
    ensures !Contains(Request, "cancel") && !Contains(Request, "no thanks") && !Contains(Request, "never mind")
  {
    RequestLacks();
    AbsentChar(Request, "cancel", 'c');
    AbsentChar(Request, "no thanks", 'n');
    AbsentChar(Request, "never mind", 'n');
  }

  lemma RequestLacksConfirmWords()
    ensures !Contains(Request, "yes") && !Contains(Request, "confirm") && !Contains(Request, "sure")
    ensures !Contains(Request, "okay") && !Contains(Request, "proceed")
  {
    RequestLacks();
    AbsentChar(Request, "yes", 'y');
    AbsentChar(Request, "confirm", 'c');
    AbsentChar(Request, "sure", 'e');
    AbsentChar(Request, "okay", 'y');
    AbsentChar(Request, "proceed", 'c');
  }

  /** A three-word list none of whose words occurs is not mentioned. */
  lemma NoneOf3(text: string, words: seq<string>, a: string, b: string, c: string)
    requires words == [a, b, c] && !Contains(text, a) && !Contains(text, b) && !Contains(text, c)
    ensures !MentionsAny(text, words)
  {
  }

  /** A five-word list none of whose words occurs is not mentioned. */
  lemma NoneOf5(text: string, words: seq<string>, a: string, b: string, c: string, d: string, e: string)
    requires words == [a, b, c, d, e]
    requires !Contains(text, a) && !Contains(text, b) && !Contains(text, c) && !Contains(text, d) && !Contains(text, e)
    ensures !MentionsAny(text, words)
  {
  }

  /** The request uses no cancelling word: each of them has a letter the request lacks. */
  lemma RequestDoesNotCancel()
    ensures !MentionsAny(Request, CancelWords)
  {
    RequestLacksCancelWords();
    NoneOf3(Request, CancelWords, "cancel", "no thanks", "never mind");
  }

  /** The request uses no confirming word either. */
  lemma RequestDoesNotConfirm()
    ensures !MentionsAny(Request, ConfirmWords)
  {
    RequestLacksConfirmWords();
    NoneOf5(Request, ConfirmWords, "yes", "confirm", "sure", "okay", "proceed");
  }

  /** "2pm" at index 23 is a time expression: a boundary before, one digit, the suffix, the end. */
  lemma RequestTimeAt23()
    ensures FindTimeFrom(Request, 23) == Some("2pm")
  {
    assert !IsWordChar(Request[22]) && IsDigit(Request[23]) && !IsDigit(Request[24]);
    assert !IsSpace('p');
    assert SkipSpaces(Request, 24) == 24;
    assert Request[24..26] == "pm";
    assert TimeMatchAt(Request, 23) == Some(26);
    assert Request[23..26] == "2pm";
  }

  /** The only time expression in the request is "2pm", at its end. */
  lemma RequestTime()
    ensures FindTime(Request) == Some("2pm")
  {
    FindTimeSkips(Request, 0, 23);
    RequestTimeAt23();
  }

  /** An utterance in lower case that books, names an SUV and tomorrow, and says "2pm" reads as such. */
  lemma ReadsAsSuvBooking(message: string)
    requires Lower(message) == message
    requires !MentionsAny(message, CancelWords) && !MentionsAny(message, ConfirmWords)
    requires Contains(message, "book") && Contains(message, "suv") && Contains(message, "tomorrow")
    requires FindTime(message) == Some("2pm")
    ensures Fallback(message) == IntentInfo(TestDriveBooking, Some("SUV"), None, Some("tomorrow"), Some("2pm"))
  {
    ClassifiedAsBooking(message, CancelWords, ConfirmWords, BookingWords, "book");
    FirstKindIsHead(message, VehicleKinds, "suv");
    UpperSuv();
    assert DateWord(message, "tomorrow", "today") == Some("tomorrow");
  }

  lemma UpperSuv()
    ensures Upper("suv") == "SUV"
  {
    var u := Upper("suv");
    assert u[0] == 'S' && u[1] == 'U' && u[2] == 'V';
  }

  /** An utterance with no cancel or confirm word and a booking word is a booking. */
  lemma ClassifiedAsBooking(m: string, cancel: seq<string>, confirm: seq<string>, book: seq<string>, w: string)
    requires !MentionsAny(m, cancel) && !MentionsAny(m, confirm)
    requires book != [] && book[0] == w && Contains(m, w)
    ensures Classify(m, cancel, confirm, book) == TestDriveBooking
  {
    assert MentionsAny(m, book);
  }

  /** When the first listed type is mentioned, it is the one reported. */
  lemma FirstKindIsHead(m: string, kinds: seq<string>, w: string)
    requires kinds != [] && kinds[0] == w && Contains(m, w)
    ensures FirstKind(m, kinds) == Some(Upper(w))
  {
  }

  /** The keyword fallback reads a booking request with a type, a day and a time. */
  lemma FallbackExample()
    ensures Fallback(Request) == IntentInfo(TestDriveBooking, Some("SUV"), None, Some("tomorrow"), Some("2pm"))
  {
    assert Lower(Request) == Request;
    RequestMentions();
    RequestDoesNotCancel();
    RequestDoesNotConfirm();
    RequestTime();
    ReadsAsSuvBooking(Request);
  }
}

=== FILE: scheduler.dfy ===
/**
 * The booking scheduler (`BookingAgent`): an ordered list of test-drive bookings with
 * time-window validation, exact-match conflict detection, create / cancel / reschedule
 * transitions, a half-hour availability grid and two read projections.
 *
 * Dates and times are kept as the text the caller supplied, as the bookings store them:
 * conflicts, the grid and the projections compare that text, and only validation parses it.
 * The current date and every new booking id are parameters; clocks, timestamps and the
 * database file are not modelled.
 */
module Scheduler {
  import opened Common
  import opened Calendar
  import Catalog

  datatype Status = Confirmed | Cancelled

  /** The part of a catalog vehicle a booking keeps. */
  datatype VehicleRef = VehicleRef(id: string, make: string, model: string, year: int)

  datatype Customer = Customer(name: Option<string>, phone: Option<string>, email: Option<string>)

  datatype Booking = Booking(
    id: string,
    vehicle: VehicleRef,
    date: string,
    time: string,
    customer: Customer,
    status: Status)

  /** Opening and closing time of the business, as minutes since midnight. */
  datatype Hours = Hours(start: TimeOfDay, end: TimeOfDay)

  /** The scheduler's fixed window, 09:00 to 18:00. */
  const DefaultHours := Hours(9 * 60, 18 * 60)

  datatype ValidationError = PastDate | OutOfHours | MalformedInput

  datatype BookingError = InvalidTime(reason: ValidationError) | SlotTaken | NotFound | AlreadyCancelled

  /** The booking list after an operation, and what the operation reports. */
  datatype Outcome<T> = Outcome(bookings: seq<Booking>, result: Result<T, BookingError>)

  predicate Active(b: Booking) { b.status != Cancelled }

  /** `b` holds vehicle `vid` at `date` and `time`. */
  predicate Occupies(b: Booking, vid: string, date: string, time: string)
  {
    Active(b) && b.vehicle.id == vid && b.date == date && b.time == time
  }

  /** Some live booking holds vehicle `vid` at `date` and `time`. */
  predicate Taken(bs: seq<Booking>, vid: string, date: string, time: string)
  {
    exists i :: 0 <= i < |bs| && Occupies(bs[i], vid, date, time)
  }

  /** The headline invariant: no two live bookings hold the same vehicle, date and time. */
  predicate NoDoubleBooking(bs: seq<Booking>)
  {
    forall i, j :: 0 <= i < j < |bs| && Active(bs[i]) && Active(bs[j]) ==>
      (bs[i].vehicle.id, bs[i].date, bs[i].time) != (bs[j].vehicle.id, bs[j].date, bs[j].time)
  }

  predicate UniqueIds(bs: seq<Booking>)
  {
    forall i, j :: 0 <= i < j < |bs| ==> bs[i].id != bs[j].id
  }

  /** `k` is the position of the first booking carrying `id`. */
  predicate FirstWithId(bs: seq<Booking>, id: string, k: int)
  {
    0 <= k < |bs| && bs[k].id == id && forall j :: 0 <= j < k ==> bs[j].id != id
  }

  /**
   * `_validate_booking_time`: the date is parsed and compared with today first, then the
   * time is parsed and compared with the business hours, both ends included.
   */
  function Validate(hours: Hours, today: Date, date: string, time: string): (r: Result<(), ValidationError>)
    ensures r.Ok? <==> && ParseDate(date).Some? && !Before(ParseDate(date).value, today)
                       && ParseTime(time).Some? && hours.start <= ParseTime(time).value <= hours.end
    ensures r == Err(PastDate) <==> ParseDate(date).Some? && Before(ParseDate(date).value, today)
    ensures r == Err(OutOfHours) ==> ParseDate(date).Some? && ParseTime(time).Some?
    ensures r == Err(MalformedInput) ==> ParseDate(date).None? || ParseTime(time).None?
  {
    match ParseDate(date)
    case None => Err(MalformedInput)
    case Some(d) =>
      if Before(d, today) then Err(PastDate)
      else
        match ParseTime(time)
        case None => Err(MalformedInput)
        case Some(t) => if hours.start <= t <= hours.end then Ok(()) else Err(OutOfHours)
  }

  /** `_has_conflict`: a scan for a live booking of the same vehicle at the same date and time. */
  function HasConflict(bs: seq<Booking>, date: string, time: string, vid: string): (r: bool)
    ensures r <==> Taken(bs, vid, date, time)
    decreases |bs|
  {
    if bs == [] then false
    else if Occupies(bs[0], vid, date, time) then true
    else
      var rest := HasConflict(bs[1..], date, time, vid);
      assert Taken(bs[1..], vid, date, time) ==> Taken(bs, vid, date, time) by {
        if Taken(bs[1..], vid, date, time) {
          var i :| 0 <= i < |bs[1..]| && Occupies(bs[1..][i], vid, date, time);
          assert Occupies(bs[i + 1], vid, date, time);
        }
      }
      assert Taken(bs, vid, date, time) ==> Taken(bs[1..], vid, date, time) by {
        if Taken(bs, vid, date, time) {
          var i :| 0 <= i < |bs| && Occupies(bs[i], vid, date, time);
          assert i > 0 && Occupies(bs[1..][i - 1], vid, date, time);
        }
      }
      rest
  }

  function RefOf(v: Catalog.Vehicle): VehicleRef
  {
    VehicleRef(v.id, v.make, v.model, v.year)
  }

  /**
   * `create_booking`: validation first, then the conflict check, each failing with the
   * list untouched; otherwise one confirmed booking is appended at the end.
   */
  function Create(bs: seq<Booking>, hours: Hours, today: Date, newId: string, vehicle: Catalog.Vehicle,
                  date: string, time: string, customer: Customer): (r: Outcome<Booking>)
    ensures Validate(hours, today, date, time).Err? ==>
              r == Outcome(bs, Err(InvalidTime(Validate(hours, today, date, time).error)))
    ensures Validate(hours, today, date, time).Ok? && Taken(bs, vehicle.id, date, time) ==>
              r == Outcome(bs, Err(SlotTaken))
    ensures Validate(hours, today, date, time).Ok? && !Taken(bs, vehicle.id, date, time) ==>
              && r.result == Ok(Booking(newId, RefOf(vehicle), date, time, customer, Confirmed))
              && r.bookings == bs + [r.result.value]
  {
    match Validate(hours, today, date, time)
    case Err(e) => Outcome(bs, Err(InvalidTime(e)))
    case Ok(_) =>
      if HasConflict(bs, date, time, vehicle.id) then Outcome(bs, Err(SlotTaken))
      else
        var b := Booking(newId, RefOf(vehicle), date, time, customer, Confirmed);
        Outcome(bs + [b], Ok(b))
  }

  /** `get_booking_by_id`: the first booking carrying `id`. */
  function ById(bs: seq<Booking>, id: string): (r: Option<Booking>)
    ensures r.None? <==> forall i :: 0 <= i < |bs| ==> bs[i].id != id
    ensures r.Some? ==> exists k :: FirstWithId(bs, id, k) && bs[k] == r.value
  {
    match IndexOf(bs, id)
    case None => None
    case Some(k) => Some(bs[k])
  }

  function IndexOf(bs: seq<Booking>, id: string): (r: Option<nat>)
    ensures r.None? <==> forall i :: 0 <= i < |bs| ==> bs[i].id != id
    ensures r.Some? ==> FirstWithId(bs, id, r.value)
  {
    FirstIndex(bs, (b: Booking) => b.id == id)
  }

  /**
   * `cancel_booking`: fails when no booking has the id or the first one with it is already
   * cancelled; otherwise marks that booking cancelled and changes nothing else.
   */
  function Cancel(bs: seq<Booking>, id: string): (r: Outcome<()>)
    ensures (forall i :: 0 <= i < |bs| ==> bs[i].id != id) ==> r == Outcome(bs, Err(NotFound))
    ensures forall k :: FirstWithId(bs, id, k) ==>
              if bs[k].status == Cancelled then r == Outcome(bs, Err(AlreadyCancelled))
              else r == Outcome(bs[k := bs[k].(status := Cancelled)], Ok(()))
  {
    match IndexOf(bs, id)
    case None => Outcome(bs, Err(NotFound))
    case Some(k) =>
      if bs[k].status == Cancelled then Outcome(bs, Err(AlreadyCancelled))
      else Outcome(bs[k := bs[k].(status := Cancelled)], Ok(()))
  }

  /**
   * `reschedule_booking`: finds the booking, validates the new date and time, and checks the
   * new slot for conflicts against every live booking (the moved one included); on success
   * only that booking's date and time change. A cancelled booking is moved too, and stays
   * cancelled.
   */
  function Reschedule(bs: seq<Booking>, hours: Hours, today: Date, id: string,
                      newDate: string, newTime: string): (r: Outcome<Booking>)
    ensures (forall i :: 0 <= i < |bs| ==> bs[i].id != id) ==> r == Outcome(bs, Err(NotFound))
    ensures forall k :: FirstWithId(bs, id, k) ==>
              if Validate(hours, today, newDate, newTime).Err? then
                r == Outcome(bs, Err(InvalidTime(Validate(hours, today, newDate, newTime).error)))
              else if Taken(bs, bs[k].vehicle.id, newDate, newTime) then
                r == Outcome(bs, Err(SlotTaken))
              else
                && r.result == Ok(bs[k].(date := newDate, time := newTime))
                && r.bookings == bs[k := r.result.value]
  {
    match IndexOf(bs, id)
    case None => Outcome(bs, Err(NotFound))
    case Some(k) =>
      match Validate(hours, today, newDate, newTime)
      case Err(e) => Outcome(bs, Err(InvalidTime(e)))
      case Ok(_) =>
        if HasConflict(bs, newDate, newTime, bs[k].vehicle.id) then Outcome(bs, Err(SlotTaken))
        else
          var moved := bs[k].(date := newDate, time := newTime);
          Outcome(bs[k := moved], Ok(moved))
  }

  /**
   * The candidate slots of `get_available_slots`: `HH:00` and `HH:30` for every hour from
   * the opening hour up to, not including, the closing hour (the minutes of both are
   * ignored), in ascending order.
   */
  function SlotGrid(hours: Hours): (r: seq<string>)
    ensures |r| == 2 * Max(0, hours.end / 60 - hours.start / 60)
    ensures forall i :: 0 <= i < |r| ==> ParseTime(r[i]) == Some(hours.start / 60 * 60 + 30 * i)
    ensures forall i :: 0 <= i < |r| ==> |r[i]| == 5
  {
    var first := hours.start / 60;
    var n := 2 * Max(0, hours.end / 60 - first);
    var r := seq(n, i requires 0 <= i < n => FormatTime(first * 60 + 30 * i));
    forall i | 0 <= i < |r|
      ensures ParseTime(r[i]) == Some(first * 60 + 30 * i)
    {
      ParseFormatTime(first * 60 + 30 * i);
    }
    r
  }

  /**
   * Slots are compared as text, so a requested time finds its slot only in the canonical
   * `HH:MM` form: a five-character time on a half hour between the opening hour and the
   * closing hour is one of the grid's strings.
   */
  lemma OnGridIsSlot(hours: Hours, s: string, t: TimeOfDay)
    requires ParseTime(s) == Some(t) && |s| == 5
    requires t % 30 == 0 && hours.start / 60 * 60 <= t < hours.end / 60 * 60
    ensures s in SlotGrid(hours)
  {
    var first := hours.start / 60;
    var i := (t - first * 60) / 30;
    assert t == first * 60 + 30 * i && i < 2 * (hours.end / 60 - first) by {
      assert (t - first * 60) % 30 == 0;
    }
    var g := SlotGrid(hours);
    assert ParseTime(g[i]) == Some(t) && |g[i]| == 5;
    CanonicalTime(s, t);
    CanonicalTime(g[i], t);
  }

  /** Grid slots are distinct, so a slot's presence in a filtered grid says which position it came from. */
  lemma SlotGridDistinct(hours: Hours, i: int, j: int)
    requires 0 <= i < j < |SlotGrid(hours)|
    ensures SlotGrid(hours)[i] != SlotGrid(hours)[j]
  {
    var g := SlotGrid(hours);
    assert ParseTime(g[i]) != ParseTime(g[j]);
  }

  /** `b` blocks slot `t` on `date`, for vehicle `vid` when one is given and for any vehicle otherwise. */
  predicate Blocks(b: Booking, date: string, vid: Option<string>, t: string)
  {
    Active(b) && b.date == date && (vid.None? || b.vehicle.id == vid.value) && b.time == t
  }

  predicate SlotBlocked(bs: seq<Booking>, date: string, vid: Option<string>, t: string)
  {
    exists i :: 0 <= i < |bs| && Blocks(bs[i], date, vid, t)
  }

  /** The `booked_slots` set: the times of the live bookings on `date` (of `vid`, when given). */
  function BookedTimes(bs: seq<Booking>, date: string, vid: Option<string>): (r: set<string>)
    ensures forall t :: t in r <==> SlotBlocked(bs, date, vid, t)
    decreases |bs|
  {
    if bs == [] then {}
    else
      var rest := BookedTimes(bs[1..], date, vid);
      assert forall t :: SlotBlocked(bs, date, vid, t) <==> Blocks(bs[0], date, vid, t) || SlotBlocked(bs[1..], date, vid, t) by {
        forall t ensures SlotBlocked(bs, date, vid, t) <==> Blocks(bs[0], date, vid, t) || SlotBlocked(bs[1..], date, vid, t) {
          if SlotBlocked(bs[1..], date, vid, t) {
            var i :| 0 <= i < |bs[1..]| && Blocks(bs[1..][i], date, vid, t);
            assert Blocks(bs[i + 1], date, vid, t);
          }
          if SlotBlocked(bs, date, vid, t) {
            var i :| 0 <= i < |bs| && Blocks(bs[i], date, vid, t);
            if i > 0 {
              assert Blocks(bs[1..][i - 1], date, vid, t);
            }
          }
        }
      }
      (if Active(bs[0]) && bs[0].date == date && (vid.None? || bs[0].vehicle.id == vid.value)
       then {bs[0].time} else {}) + rest
  }

  /** The slots of `grid` not in `booked`, in grid order. */
  function FreeSlots(grid: seq<string>, booked: set<string>): (r: seq<string>)
    ensures Subseq(r, grid)
    ensures forall i :: 0 <= i < |r| ==> r[i] !in booked
    ensures forall i :: 0 <= i < |grid| && grid[i] !in booked ==> grid[i] in r
    ensures forall i :: 0 <= i < |r| ==> r[i] in grid
    decreases |grid|
  {
    if grid == [] then []
    else
      var rest := FreeSlots(grid[1..], booked);
      if grid[0] in booked then rest
      else
        assert ([grid[0]] + rest)[1..] == rest;
        [grid[0]] + rest
  }

  /** Fewer booked times leave a superset of free slots, in the same order. */
  lemma {:induction false} FreeSlotsMonotone(grid: seq<string>, fewer: set<string>, more: set<string>)
    requires fewer <= more
    ensures Subseq(FreeSlots(grid, more), FreeSlots(grid, fewer))
    decreases |grid|
  {
    if grid != [] {
      FreeSlotsMonotone(grid[1..], fewer, more);
      var a := FreeSlots(grid[1..], more);
      var b := FreeSlots(grid[1..], fewer);
      if grid[0] !in fewer {
        SubseqCons(a, grid[0], b);
        if grid[0] !in more {
          assert ([grid[0]] + a)[1..] == a;
          assert ([grid[0]] + b)[1..] == b;
        }
      }
    }
  }

  /**
   * `get_available_slots`: the grid in ascending order, minus every slot some live booking
   * on that date blocks (of the given vehicle, or of any vehicle when none is given).
   */
  function AvailableSlots(bs: seq<Booking>, hours: Hours, date: string, vid: Option<string>): (r: seq<string>)
    ensures Subseq(r, SlotGrid(hours))
    ensures forall i :: 0 <= i < |SlotGrid(hours)| ==>
              (SlotGrid(hours)[i] in r <==> !SlotBlocked(bs, date, vid, SlotGrid(hours)[i]))
  {
    FreeSlots(SlotGrid(hours), BookedTimes(bs, date, vid))
  }

  /** The all-vehicle view offers a subset of any one vehicle's free slots, in the same order. */
  lemma UnscopedWithinScoped(bs: seq<Booking>, hours: Hours, date: string, vid: string)
    ensures Subseq(AvailableSlots(bs, hours, date, None), AvailableSlots(bs, hours, date, Some(vid)))
  {
    var scoped := BookedTimes(bs, date, Some(vid));
    var all := BookedTimes(bs, date, None);
    assert scoped <= all by {
      forall t | t in scoped ensures t in all {
        var i :| 0 <= i < |bs| && Blocks(bs[i], date, Some(vid), t);
        assert Blocks(bs[i], date, None, t);
      }
    }
    FreeSlotsMonotone(SlotGrid(hours), scoped, all);
  }

  /** `get_bookings_by_date`: the live bookings on `date`, in insertion order. */
  function ByDate(bs: seq<Booking>, date: string): (r: seq<Booking>)
    ensures Subseq(r, bs)
    ensures forall i :: 0 <= i < |r| ==> r[i].date == date && Active(r[i]) && r[i] in bs
    ensures forall i :: 0 <= i < |bs| && bs[i].date == date && Active(bs[i]) ==> bs[i] in r
  {
    Filter(bs, (b: Booking) => b.date == date && Active(b))
  }

  /** The day's list keeps every copy of a live booking on that date and nothing else. */
  lemma ByDateCount(bs: seq<Booking>, date: string)
    ensures forall b :: multiset(ByDate(bs, date))[b] == if b.date == date && Active(b) then multiset(bs)[b] else 0
  {
    FilterCount(bs, (b: Booking) => b.date == date && Active(b));
  }

  /** `get_customer_bookings`: every booking with that phone, cancelled ones included, in insertion order. */
  function ByCustomer(bs: seq<Booking>, phone: Option<string>): (r: seq<Booking>)
    ensures Subseq(r, bs)
    ensures forall i :: 0 <= i < |r| ==> r[i].customer.phone == phone && r[i] in bs
    ensures forall i :: 0 <= i < |bs| && bs[i].customer.phone == phone ==> bs[i] in r
  {
    Filter(bs, (b: Booking) => b.customer.phone == phone)
  }

  /** The customer's list keeps every copy of a booking with that phone and nothing else. */
  lemma ByCustomerCount(bs: seq<Booking>, phone: Option<string>)
    ensures forall b :: multiset(ByCustomer(bs, phone))[b] == if b.customer.phone == phone then multiset(bs)[b] else 0
  {
    FilterCount(bs, (b: Booking) => b.customer.phone == phone);
  }

  /** A grid slot is missing from the all-vehicle view exactly when a booking listed for that date has that time. */
  lemma AvailabilityAgreesWithByDate(bs: seq<Booking>, hours: Hours, date: string, i: int)
    requires 0 <= i < |SlotGrid(hours)|
    ensures SlotGrid(hours)[i] !in AvailableSlots(bs, hours, date, None) <==>
              exists b :: b in ByDate(bs, date) && b.time == SlotGrid(hours)[i]
  {
    var t := SlotGrid(hours)[i];
    var byDate := ByDate(bs, date);
    if SlotBlocked(bs, date, None, t) {
      var k :| 0 <= k < |bs| && Blocks(bs[k], date, None, t);
      assert bs[k] in byDate;
    }
    if exists b :: b in byDate && b.time == t {
      var b :| b in byDate && b.time == t;
      var k :| 0 <= k < |byDate| && byDate[k] == b;
      var m :| 0 <= m < |bs| && bs[m] == b;
      assert Blocks(bs[m], date, None, t);
    }
  }

  // ---------------------------------------------------------------------------------------
  // The no-double-booking invariant and the other transition properties

  lemma CreateKeepsNoDoubleBooking(bs: seq<Booking>, hours: Hours, today: Date, newId: string,
                                   vehicle: Catalog.Vehicle, date: string, time: string, customer: Customer)
    requires NoDoubleBooking(bs)
    ensures NoDoubleBooking(Create(bs, hours, today, newId, vehicle, date, time, customer).bookings)
  {
    var r := Create(bs, hours, today, newId, vehicle, date, time, customer);
    if r.result.Ok? {
      var bs' := r.bookings;
      forall i, j | 0 <= i < j < |bs'| && Active(bs'[i]) && Active(bs'[j])
        ensures (bs'[i].vehicle.id, bs'[i].date, bs'[i].time) != (bs'[j].vehicle.id, bs'[j].date, bs'[j].time)
      {
        if j == |bs| {
          assert !Occupies(bs[i], vehicle.id, date, time);
        }
      }
    }
  }

  lemma CreateKeepsUniqueIds(bs: seq<Booking>, hours: Hours, today: Date, newId: string,
                             vehicle: Catalog.Vehicle, date: string, time: string, customer: Customer)
    requires UniqueIds(bs)
    requires forall i :: 0 <= i < |bs| ==> bs[i].id != newId
    ensures UniqueIds(Create(bs, hours, today, newId, vehicle, date, time, customer).bookings)
  {
  }

  /** Right after a successful create, the same vehicle, date and time are in conflict. */
  lemma CreateThenConflict(bs: seq<Booking>, hours: Hours, today: Date, newId: string,
                           vehicle: Catalog.Vehicle, date: string, time: string, customer: Customer)
    requires Create(bs, hours, today, newId, vehicle, date, time, customer).result.Ok?
    ensures HasConflict(Create(bs, hours, today, newId, vehicle, date, time, customer).bookings, date, time, vehicle.id)
  {
    var bs' := Create(bs, hours, today, newId, vehicle, date, time, customer).bookings;
    assert Occupies(bs'[|bs|], vehicle.id, date, time);
  }

  /** Right after a successful create, the booked time is gone from both availability views. */
  lemma CreateRemovesSlot(bs: seq<Booking>, hours: Hours, today: Date, newId: string,
                          vehicle: Catalog.Vehicle, date: string, time: string, customer: Customer)
    requires Create(bs, hours, today, newId, vehicle, date, time, customer).result.Ok?
    ensures time !in AvailableSlots(Create(bs, hours, today, newId, vehicle, date, time, customer).bookings, hours, date, Some(vehicle.id))
    ensures time !in AvailableSlots(Create(bs, hours, today, newId, vehicle, date, time, customer).bookings, hours, date, None)
  {
    var bs' := Create(bs, hours, today, newId, vehicle, date, time, customer).bookings;
    assert Blocks(bs'[|bs|], date, Some(vehicle.id), time);
    assert Blocks(bs'[|bs|], date, None, time);
    assert time in BookedTimes(bs', date, Some(vehicle.id));
    assert time in BookedTimes(bs', date, None);
  }

  lemma CancelKeepsNoDoubleBooking(bs: seq<Booking>, id: string)
    requires NoDoubleBooking(bs)
    ensures NoDoubleBooking(Cancel(bs, id).bookings)
  {
    match IndexOf(bs, id)
    case None =>
    case Some(k) =>
  }

  lemma CancelKeepsUniqueIds(bs: seq<Booking>, id: string)
    requires UniqueIds(bs)
    ensures UniqueIds(Cancel(bs, id).bookings)
  {
    match IndexOf(bs, id)
    case None =>
    case Some(k) =>
  }

  /** A second cancel of the same id fails with "already cancelled" and changes nothing. */
  lemma CancelTwice(bs: seq<Booking>, id: string)
    requires Cancel(bs, id).result.Ok?
    ensures var bs' := Cancel(bs, id).bookings; Cancel(bs', id) == Outcome(bs', Err(AlreadyCancelled))
  {
    var k := IndexOf(bs, id).value;
    var bs' := Cancel(bs, id).bookings;
    assert FirstWithId(bs', id, k);
  }

  lemma RescheduleKeepsNoDoubleBooking(bs: seq<Booking>, hours: Hours, today: Date, id: string,
                                       newDate: string, newTime: string)
    requires NoDoubleBooking(bs)
    ensures NoDoubleBooking(Reschedule(bs, hours, today, id, newDate, newTime).bookings)
  {
    var r := Reschedule(bs, hours, today, id, newDate, newTime);
    if r.result.Ok? {
      var k := IndexOf(bs, id).value;
      var bs' := r.bookings;
      forall i, j | 0 <= i < j < |bs'| && Active(bs'[i]) && Active(bs'[j])
        ensures (bs'[i].vehicle.id, bs'[i].date, bs'[i].time) != (bs'[j].vehicle.id, bs'[j].date, bs'[j].time)
      {
        if i == k {
          assert !Occupies(bs[j], bs[k].vehicle.id, newDate, newTime);
        } else if j == k {
          assert !Occupies(bs[i], bs[k].vehicle.id, newDate, newTime);
        }
      }
    }
  }

  lemma RescheduleKeepsUniqueIds(bs: seq<Booking>, hours: Hours, today: Date, id: string,
                                 newDate: string, newTime: string)
    requires UniqueIds(bs)
    ensures UniqueIds(Reschedule(bs, hours, today, id, newDate, newTime).bookings)
  {
    var r := Reschedule(bs, hours, today, id, newDate, newTime);
    if r.result.Ok? {
      var k := IndexOf(bs, id).value;
      assert r.bookings == bs[k := bs[k].(date := newDate, time := newTime)];
    }
  }

  /**
   * Moving a live booking to the slot it already holds fails as taken: the conflict check
   * counts the booking being moved.
   */
  lemma RescheduleToOwnSlotFails(bs: seq<Booking>, hours: Hours, today: Date, id: string, k: int)
    requires FirstWithId(bs, id, k) && Active(bs[k])
    requires Validate(hours, today, bs[k].date, bs[k].time).Ok?
    ensures Reschedule(bs, hours, today, id, bs[k].date, bs[k].time) == Outcome(bs, Err(SlotTaken))
  {
    assert Occupies(bs[k], bs[k].vehicle.id, bs[k].date, bs[k].time);
  }
}

=== FILE: text.dfy ===
/**
 * Character classes, case mapping, substring search, whitespace stripping and decimal
 * formatting, with the meaning Python's `str` methods and `re` character classes give them
 * on ASCII text.
 */
module Text {

  /** `\d`: an ASCII decimal digit. */
  predicate IsDigit(c: char) { '0' <= c <= '9' }

  function DigitValue(c: char): nat
    requires IsDigit(c)
  {
    c as int - '0' as int
  }

  function DigitChar(d: nat): (c: char)
    requires d < 10
    ensures IsDigit(c) && DigitValue(c) == d
  {
    ('0' as int + d) as char
  }

  /** The value of the two-digit numeral `a b`. */
  function Num2(a: char, b: char): nat
    requires IsDigit(a) && IsDigit(b)
  {
    10 * DigitValue(a) + DigitValue(b)
  }

  predicate IsLetter(c: char) { 'a' <= c <= 'z' || 'A' <= c <= 'Z' }

  /** `\w`: a character that can be part of a word. */
  predicate IsWordChar(c: char) { IsLetter(c) || IsDigit(c) || c == '_' }

  /** `str.isspace()` and `\s`: every character Python treats as whitespace. */
  predicate IsSpace(c: char)
  {
    c == ' ' || '\t' <= c <= '\r' || '\U{001C}' <= c <= '\U{001F}' || c == '\U{0085}' || c == '\U{00A0}'
    || c == '\U{1680}' || '\U{2000}' <= c <= '\U{200A}' || c == '\U{2028}' || c == '\U{2029}'
    || c == '\U{202F}' || c == '\U{205F}' || c == '\U{3000}'
  }

  function LowerChar(c: char): char
  {
    if 'A' <= c <= 'Z' then (c as int + 32) as char else c
  }

  function UpperChar(c: char): char
  {
    if 'a' <= c <= 'z' then (c as int - 32) as char else c
  }

  /** `str.lower()`. */
  function Lower(s: string): (r: string)
    ensures |r| == |s|
  {
    seq(|s|, i requires 0 <= i < |s| => LowerChar(s[i]))
  }

  /** `str.upper()`. */
  function Upper(s: string): (r: string)
    ensures |r| == |s|
  {
    seq(|s|, i requires 0 <= i < |s| => UpperChar(s[i]))
  }

  /** Comparing upper-cased strings and comparing lower-cased strings is the same test. */
  lemma UpperEqIffLowerEq(a: string, b: string)
    ensures Upper(a) == Upper(b) <==> Lower(a) == Lower(b)
  {
    if Upper(a) == Upper(b) {
      assert forall i :: 0 <= i < |a| ==> Lower(a)[i] == Lower(b)[i] by {
        forall i | 0 <= i < |a| ensures Lower(a)[i] == Lower(b)[i] {
          assert Upper(a)[i] == Upper(b)[i];
        }
      }
    }
    if Lower(a) == Lower(b) {
      assert forall i :: 0 <= i < |a| ==> Upper(a)[i] == Upper(b)[i] by {
        forall i | 0 <= i < |a| ensures Upper(a)[i] == Upper(b)[i] {
          assert Lower(a)[i] == Lower(b)[i];
        }
      }
    }
  }

  predicate StartsWith(s: string, prefix: string)
  {
    |prefix| <= |s| && s[..|prefix|] == prefix
  }

  /** `needle in hay`: the scan tries every start position from the left. */
  predicate Contains(hay: string, needle: string)
    decreases |hay|
  {
    StartsWith(hay, needle) || (|hay| > 0 && Contains(hay[1..], needle))
  }

  /** `needle` occurs in `hay` starting at index `i`. */
  predicate OccursAt(hay: string, needle: string, i: int)
  {
    0 <= i <= |hay| - |needle| && hay[i..i + |needle|] == needle
  }

  /** The scan agrees with the definition of a substring: some window of `hay` equals `needle`. */
  lemma {:induction false} ContainsIff(hay: string, needle: string)
    ensures Contains(hay, needle) <==> exists i :: OccursAt(hay, needle, i)
    decreases |hay|
  {
    if |hay| > 0 {
      ContainsIff(hay[1..], needle);
      if Contains(hay[1..], needle) {
        var i :| OccursAt(hay[1..], needle, i);
        assert hay[i + 1..i + 1 + |needle|] == hay[1..][i..i + |needle|];
        assert OccursAt(hay, needle, i + 1);
      }
      if exists i :: OccursAt(hay, needle, i) {
        var i :| OccursAt(hay, needle, i);
        if i > 0 {
          assert hay[1..][i - 1..i - 1 + |needle|] == hay[i..i + |needle|];
          assert OccursAt(hay[1..], needle, i - 1);
        } else {
          assert StartsWith(hay, needle);
        }
      }
      if StartsWith(hay, needle) {
        assert OccursAt(hay, needle, 0);
      }
    } else {
      if exists i :: OccursAt(hay, needle, i) {
        var i :| OccursAt(hay, needle, i);
        assert StartsWith(hay, needle);
      }
      if StartsWith(hay, needle) {
        assert OccursAt(hay, needle, 0);
      }
    }
  }

  /** An occurrence at a known index is found by the scan. */
  lemma ContainsAt(hay: string, needle: string, i: int)
    requires OccursAt(hay, needle, i)
    ensures Contains(hay, needle)
  {
    ContainsIff(hay, needle);
  }

  /** A needle holding a character the haystack lacks does not occur in it. */
  lemma AbsentChar(hay: string, needle: string, c: char)
    requires c in needle && c !in hay
    ensures !Contains(hay, needle)
  {
    ContainsIff(hay, needle);
    var k :| 0 <= k < |needle| && needle[k] == c;
    forall i ensures !OccursAt(hay, needle, i) {
      if 0 <= i <= |hay| - |needle| {
        assert hay[i..i + |needle|][k] == hay[i + k] != c;
      }
    }
  }

  function TrimStart(s: string): (r: string)
    ensures |r| <= |s| && r == s[|s| - |r|..]
    ensures forall i :: 0 <= i < |s| - |r| ==> IsSpace(s[i])
    ensures r == [] || !IsSpace(r[0])
    decreases |s|
  {
    if s != [] && IsSpace(s[0]) then TrimStart(s[1..]) else s
  }

  function TrimEnd(s: string): (r: string)
    ensures |r| <= |s| && r == s[..|r|]
    ensures forall i :: |r| <= i < |s| ==> IsSpace(s[i])
    ensures r == [] || !IsSpace(r[|r| - 1])
    decreases |s|
  {
    if s != [] && IsSpace(s[|s| - 1]) then TrimEnd(s[..|s| - 1]) else s
  }

  /** `r` is the slice `s[a..b]`, and everything of `s` outside it is whitespace. */
  predicate MiddleOf(s: string, r: string, a: int, b: int)
  {
    && 0 <= a <= b <= |s| && r == s[a..b]
    && (forall i :: 0 <= i < a ==> IsSpace(s[i]))
    && (forall i :: b <= i < |s| ==> IsSpace(s[i]))
  }

  /** `str.strip()`: drops the whitespace at both ends and keeps the middle. */
  function Strip(s: string): (r: string)
    ensures exists a, b :: MiddleOf(s, r, a, b)
    ensures r == [] || (!IsSpace(r[0]) && !IsSpace(r[|r| - 1]))
  {
    var t := TrimStart(s);
    var r := TrimEnd(t);
    TrimBoth(s, t, r);
    r
  }

  /** Trimming both ends keeps a middle slice whose ends are not whitespace. */
  lemma TrimBoth(s: string, t: string, r: string)
    requires t == TrimStart(s) && r == TrimEnd(t)
    ensures MiddleOf(s, r, |s| - |t|, |s| - |t| + |r|)
    ensures r == [] || (!IsSpace(r[0]) && !IsSpace(r[|r| - 1]))
  {
    MiddleOfSuffixPrefix(s, t, r);
  }

  /**
   * A prefix `r` of a suffix `t` of `s`, with only whitespace cut off on either side, is a
   * middle of `s`; it starts as `t` does and ends as `r` does.
   */
  lemma MiddleOfSuffixPrefix(s: string, t: string, r: string)
    requires |t| <= |s| && t == s[|s| - |t|..] && forall i :: 0 <= i < |s| - |t| ==> IsSpace(s[i])
    requires |r| <= |t| && r == t[..|r|] && forall i :: |r| <= i < |t| ==> IsSpace(t[i])
    requires t == [] || !IsSpace(t[0])
    requires r == [] || !IsSpace(r[|r| - 1])
    ensures MiddleOf(s, r, |s| - |t|, |s| - |t| + |r|)
    ensures r == [] || (!IsSpace(r[0]) && !IsSpace(r[|r| - 1]))
  {
    var a := |s| - |t|;
    assert forall i :: a + |r| <= i < |s| ==> s[i] == t[i - a];
  }

  /** Text whose ends are not whitespace is left alone by `strip()`. */
  lemma StripKeeps(s: string)
    requires s != [] && !IsSpace(s[0]) && !IsSpace(s[|s| - 1])
    ensures Strip(s) == s
  {
  }

  /** `strip()` of text with one whitespace character at each end drops exactly those two. */
  lemma StripOneEach(s: string)
    requires |s| >= 3 && IsSpace(s[0]) && IsSpace(s[|s| - 1]) && !IsSpace(s[1]) && !IsSpace(s[|s| - 2])
    ensures Strip(s) == s[1..|s| - 1]
  {
    var t := s[1..];
    assert TrimStart(t) == t;
    assert TrimStart(s) == t;
    assert t[..|t| - 1] == s[1..|s| - 1];
    assert TrimEnd(t[..|t| - 1]) == t[..|t| - 1];
  }

  /** The first index at or after `j` that is not whitespace (or the end of `s`): `\s*`. */
  function SkipSpaces(s: string, j: nat): (r: nat)
    requires j <= |s|
    ensures j <= r <= |s|
    ensures forall k :: j <= k < r ==> IsSpace(s[k])
    ensures r == |s| || !IsSpace(s[r])
    decreases |s| - j
  {
    if j < |s| && IsSpace(s[j]) then SkipSpaces(s, j + 1) else j
  }

  /** Four consecutive slices of a text, joined, are a prefix of it. */
  lemma SlicesJoin(s: string, j: nat, a: nat, k: nat, e: nat)
    requires j <= a <= k <= e <= |s|
    ensures s[..j] + s[j..a] + s[a..k] + s[k..e] <= s
  {
    assert s[..j] + s[j..a] == s[..a];
    assert s[..a] + s[a..k] == s[..k];
    assert s[..k] + s[k..e] == s[..e];
  }

  /** Skipping whitespace from `a` over a run of it stops at the first character that is not. */
  lemma {:induction false} SkipSpacesTo(s: string, a: nat, b: nat)
    requires a <= b < |s| && !IsSpace(s[b])
    requires forall n :: a <= n < b ==> IsSpace(s[n])
    ensures SkipSpaces(s, a) == b
    decreases b - a
  {
    if a < b {
      SkipSpacesTo(s, a + 1, b);
    }
  }

  predicate AllDigits(s: string)
  {
    forall i :: 0 <= i < |s| ==> IsDigit(s[i])
  }

  /** The value of a one- or two-digit numeral (`int()` of a `\d{1,2}` group). */
  function Numeral(d: string): nat
    requires 1 <= |d| <= 2 && AllDigits(d)
  {
    if |d| == 1 then DigitValue(d[0]) else Num2(d[0], d[1])
  }

  /** The shortest decimal numeral of `n`. */
  function Decimal(n: nat): (r: string)
    ensures |r| >= 1 && AllDigits(r)
    ensures n >= 10 ==> |r| >= 2
    decreases n
  {
    if n < 10 then [DigitChar(n)] else Decimal(n / 10) + [DigitChar(n % 10)]
  }

  /** Python's `f"{n:02d}"`: at least two digits, zero-padded. */
  function Pad2(n: nat): (r: string)
    ensures AllDigits(r) && |r| >= 2
    ensures n < 100 ==> |r| == 2 && Num2(r[0], r[1]) == n
  {
    if n < 100 then [DigitChar(n / 10), DigitChar(n % 10)] else Decimal(n)
  }

  /** Two digits are the zero-padded rendering of the number they spell. */
  lemma Pad2OfNum2(a: char, b: char)
    requires IsDigit(a) && IsDigit(b)
    ensures Pad2(Num2(a, b)) == [a, b]
  {
    var n := Num2(a, b);
    assert n / 10 == DigitValue(a) && n % 10 == DigitValue(b);
    assert DigitChar(DigitValue(a)) == a && DigitChar(DigitValue(b)) == b;
  }

  /** Four digits are the zero-padded rendering of the number they spell. */
  lemma Pad4OfDigits(a: char, b: char, c: char, d: char)
    requires IsDigit(a) && IsDigit(b) && IsDigit(c) && IsDigit(d)
    ensures Pad4(1000 * DigitValue(a) + 100 * DigitValue(b) + 10 * DigitValue(c) + DigitValue(d)) == [a, b, c, d]
  {
    var hi, lo := Num2(a, b), Num2(c, d);
    var n := 1000 * DigitValue(a) + 100 * DigitValue(b) + 10 * DigitValue(c) + DigitValue(d);
    assert n == 100 * hi + lo && lo < 100;
    assert n / 100 == hi && n % 100 == lo;
    assert hi / 10 == DigitValue(a) && hi % 10 == DigitValue(b);
    assert lo / 10 == DigitValue(c) && lo % 10 == DigitValue(d);
    assert DigitChar(DigitValue(a)) == a && DigitChar(DigitValue(b)) == b;
    assert DigitChar(DigitValue(c)) == c && DigitChar(DigitValue(d)) == d;
  }

  /** A four-digit, zero-padded year numeral. */
  function Pad4(n: nat): (r: string)
    requires n < 10000
    ensures |r| == 4 && AllDigits(r)
    ensures 1000 * DigitValue(r[0]) + 100 * DigitValue(r[1]) + 10 * DigitValue(r[2]) + DigitValue(r[3]) == n
  {
    var hi, lo := n / 100, n % 100;
    assert n == 100 * hi + lo && hi < 100;
    assert hi == 10 * (hi / 10) + hi % 10 && lo == 10 * (lo / 10) + lo % 10;
    [DigitChar(hi / 10), DigitChar(hi % 10), DigitChar(lo / 10), DigitChar(lo % 10)]
  }
}
